=== FILE: README.md ===
# Expense-sharing settlement engine, in Dafny

A model of the core of a Django expense tracker. The people of an event
record who paid for what and among whom each expense is shared. From that,
the application computes:

- **balances** (`Event.get_balance`): each participant's net position, where
  positive means they are owed money and negative that they owe;
- **a settlement plan** (`Event.get_settlement`): a list of transfers from
  debtors to creditors that clears the rounded balances.

Around these two computations sit the validation rules that keep the stored
data consistent:

- the `clean` methods of `Participant`, `Expense` and `Settlement`;
- the check on changes to an expense's split;
- the expense serializer's `validate`, `create` and `update`;
- the expense view's `perform_create`, which resolves the event, the
  category and the split from ids given in the request.

Modules, in dependency order:

| module | file | models |
|---|---|---|
| `Wrappers` | wrappers.dfy | `Option`, `Result`, `Outcome` (pass or fail with an error) |
| `Entities` | entities.dfy | participants, expenses, events, recorded settlements, error keys, the database rows the validators consult |
| `Balances` | balances.dfy | `get_balance`: exact shares, the `KeyError` for someone outside the event, conservation, order independence |
| `Settlements` | settlements.dfy | `get_settlement`: rounding half-up to the cent, the split into creditors and debtors, and the two-pointer matching loop (`Settle`), proved equal to a recursive reference (`Greedy`) |
| `Clean` | clean.dfy | the three `clean` methods, with Python's `str.strip` |
| `Serializer` | serializer.dfy | `ExpenseSerializer.validate/create/update` and the split-change check |
| `Views` | views.dfy | `ExpenseViewSet.perform_create` |
| `Scenarios` | scenarios.dfy | two concrete events worked through end to end |

Amounts are integers in cents, because the amount fields hold two decimal
places. A balance is an exact rational number of cents, because
`expense.amount / split_count` is a `Decimal` division that need not land
on a whole cent; the source keeps 28 significant digits of it (see
"## Left out"). Rounding a balance to the cent with `ROUND_HALF_UP` is
`RoundHalfUp` on its value in cents: round to the nearest integer, with
halves going away from zero.

Three consequences of the code are worth stating, because they are easy
to assume otherwise:

- **Transfers follow participant order.** Debtors and creditors are not
  sorted by size; each list keeps the order in which the participants are
  listed. With balances A +20.00, B −4.00 and C −16.00, the plan is B→A
  4.00 and then C→A 16.00 (`Scenarios.TwoExpenseSettlement`,
  `Settlements.PartitionKeepsOrder`).
- **Shares are not rounded to whole cents.** The source divides at
  `Decimal`'s 28-digit precision, which the model treats as exact; only
  the final balances are rounded to the cent.
- **A rounding residue can remain.** Because rounding happens only at the
  end, the rounded balances need not add up to zero. When 10.00 paid by A
  is split three ways, A is owed 6.67 and receives 6.66
  (`Scenarios.ThreeWaySettlement`).

## Model

| member | source | states |
|---|---|---|
| Balances.Initial | expenses/models.py:40 | every participant of the event starts at zero, and nobody else has an entry |
| Balances.DebitValues | expenses/models.py:56-57 | each participant loses one share for every time they appear in the split, and the others are unchanged |
| Balances.SharesAddUp | expenses/models.py:51-57 | the shares of an expense add back up to its amount |
| Balances.ApplyExpense | expenses/models.py:46-59 | an expense succeeds exactly when every split member and the payer have an entry; otherwise the error names one missing participant. On success, each participant's new balance is the old one plus the expense's closed-form effect: the payer gains the amount, each split member loses a share, and nobody else changes. An empty split with nobody to share it changes nothing |
| Balances.ApplyAll | expenses/models.py:42-59 | processing all expenses succeeds exactly when each one can be resolved; each balance then moves by the sum of the expenses' effects, and the key set is unchanged |
| Balances.GetBalance | expenses/models.py:38-61 | `get_balance` has exactly one entry per participant, each equal to that participant's net effect over all expenses. It fails exactly when some expense that has someone to share it names a payer or split member outside the event; an expense with an empty split in an event without participants is skipped whoever paid it |
| Balances.ExpenseConservesTotal | expenses/models.py:54-59 | with exact shares, one resolvable expense leaves the sum of all balances unchanged |
| Balances.ApplyAllConservesTotal | expenses/models.py:42-59 | with exact shares, a whole run of expenses leaves the sum of all balances unchanged |
| Balances.BalancesSumToZero | expenses/models.py:38-61 | with exact shares, an event's balances add up to exactly zero |
| Balances.NetEffectPermutation | expenses/models.py:42-59 | two lists of the same expenses in any order have the same net effect on every participant |
| Balances.ApplyAllOrderIndependent | expenses/models.py:42-59 | reordering the expenses changes neither whether processing succeeds nor the balances it produces |
| Balances.GetBalanceOrderIndependent | expenses/models.py:38-61 | the order in which the database lists an event's expenses does not affect `get_balance` |
| Settlements.RoundHalfUp | expenses/models.py:73 | the result is an integer within half a cent of the input, and ties go away from zero |
| Settlements.Rounded | expenses/models.py:72-73 | every balance is rounded half-up to the cent, with the same keys |
| Settlements.Partition | expenses/models.py:72-81 | creditors are listed participants with a positive rounded balance and carry that amount; debtors are those with a negative one and carry its absolute value; zero balances are dropped |
| Settlements.PartitionClaims | expenses/models.py:72-81 | over distinct participants, each creditor's claim is exactly their positive rounded balance and each debtor's is exactly their debt; everyone else claims nothing |
| Settlements.PartitionSums | expenses/models.py:72-81 | the creditors' amounts add up to the total due, and the debtors' to the total owed |
| Settlements.PartitionDistinctIds | expenses/models.py:72-81 | no participant appears twice among the creditors or twice among the debtors |
| Settlements.PartitionKeepsOrder | expenses/models.py:72-81 | neither list is sorted: the creditors, and likewise the debtors, appear in the order in which the participants are listed |
| Settlements.PartitionCoversUnsettled | expenses/models.py:72-81 | the creditors and debtors together are exactly the listed participants whose rounded balance is not zero |
| Settlements.Greedy | expenses/models.py:85-108 | the matching never plans more transfers than there are debtors and creditors, minus one |
| Settlements.Retire | expenses/models.py:97-108 | after a payment, a party whose amount reaches zero is passed over, and otherwise their amount is reduced in place; the entries before the one paid are untouched |
| Settlements.Settle | expenses/models.py:85-108 | the two-pointer loop produces exactly the transfers of the recursive matching, at most debtors plus creditors minus one of them |
| Settlements.GreedyEndpoints | expenses/models.py:87-95 | every transfer goes from a debtor to a creditor |
| Settlements.ResidueAccounts | expenses/models.py:97-108 | a payment lowers the head party's amount, and the list's total, by exactly the payment; all amounts stay positive |
| Settlements.GreedyPaysPositive | expenses/models.py:89-95 | every planned transfer is for a positive amount |
| Settlements.GreedyTransfersMin | expenses/models.py:85-108 | the plan moves in total the smaller of what the debtors owe and what the creditors are due |
| Settlements.GreedyFlows | expenses/models.py:85-108 | nobody pays more than they owe or receives more than they are due; the side with the smaller total is cleared completely |
| Settlements.GetSettlement | expenses/models.py:63-110 | `get_settlement` fails exactly when `get_balance` does; each transfer is positive and goes from a participant with a negative rounded balance to one with a positive rounded balance |
| Settlements.SettlementCount | expenses/models.py:63-110 | with n participants whose rounded balance is not zero, there are at most n − 1 transfers |
| Settlements.SettlementTotal | expenses/models.py:63-110 | the plan moves the smaller of the total owed and the total due |
| Settlements.PlanFlows | expenses/models.py:72-108 | for one participant, what they pay is at most what they owe and what they receive is at most what they are due, with equality on the side with the smaller total |
| Settlements.SettlementFlows | expenses/models.py:63-110 | the same bounds, stated for an event's rounded balances |
| Settlements.SettlementSettlesEveryone | expenses/models.py:63-110 | when the rounded balances add up to zero, what each participant receives minus what they pay is exactly their rounded balance |
| Settlements.NetSumZero | expenses/models.py:97-108 | transfers among a list of distinct participants leave the sum of what each receives minus what each pays at zero |
| Settlements.BalancedIfSettled | expenses/models.py:97-108 | if transfers among distinct participants bring each of them to their rounded balance, those rounded balances add up to zero |
| Settlements.SettledOnlyWhenBalanced | expenses/models.py:63-110 | if the plan brings every participant exactly to their rounded balance, the rounded balances add up to zero |
| Settlements.SettlementSettlesEveryoneExactly | expenses/models.py:63-110 | the plan brings every participant exactly to their rounded balance if and only if the rounded balances add up to zero |
| Clean.TrimLeft | expenses/models.py:124 | the result is a suffix of the input; only whitespace was removed, and it does not start with whitespace |
| Clean.TrimRight | expenses/models.py:124 | the result is a prefix of the input; only whitespace was removed, and it does not end with whitespace |
| Clean.Strip | expenses/models.py:124 | the stripped name has no whitespace at either end, and it is empty exactly when the name was all whitespace |
| Clean.StripSurrounded | expenses/models.py:124 | stripping a trimmed string with any whitespace around it returns that string |
| Clean.StripIdempotent | expenses/models.py:124 | stripping twice is the same as stripping once |
| Clean.CleanParticipantName | expenses/models.py:121-126 | the name is rejected under `name` exactly when it is empty or all whitespace; an accepted name is returned trimmed and non-empty |
| Clean.CleanParticipantNameIdempotent | expenses/models.py:121-126 | a cleaned name passes the rule again unchanged |
| Clean.CleanParticipantNameKeepsCore | expenses/models.py:121-126 | cleaning removes the surrounding whitespace and nothing else |
| Clean.CheckSplit | expenses/models.py:158-161 | the split check passes exactly when every split member belongs to the expense's event; otherwise the error is under `split_between` |
| Clean.CleanExpense | expenses/models.py:154-161 | the check passes exactly when the payer belongs to the event and, for a stored expense, so does every split member. A payer outside the event is the error under `payer`, and it is reported first |
| Clean.CleanSettlement | expenses/models.py:197-205 | each outcome is characterised exactly, in the source's order. Paying oneself fails under `to_participant`, by comparing ids only. Then, if the event is set, the payer is read: an unset or missing payer raises instead of reporting a validation error, and a payer outside the event fails under `from_participant`. The payee is then read and checked the same way, failing under `to_participant`. A settlement without an event passes once the two ids differ |
| Clean.CleanExpensesBalance | expenses/models.py:154-161 | when every stored expense of an event passes its check, the balance computation cannot fail |
| Clean.RecordedTransfersAreClean | expenses/models.py:197-205 | each transfer of a settlement plan, once recorded as a settlement of the event, passes `Settlement.clean` |
| Clean.UnsetPayerRaises | expenses/models.py:199-204 | with the event set, a settlement whose payer or payee is unset raises on the read; without an event the same settlement passes |
| Serializer.Validate | expenses/serializers.py:40-63 | each error is characterised exactly, in the source's order. With no event from the request or the instance the error is `event`. A payer outside the event gives `payer`. A given split with a member outside the event gives `split_between_ids`. An amount of zero or less gives `amount`. Otherwise the input is returned unchanged |
| Serializer.GuardSplit | expenses/models.py:181-187 | setting a split passes exactly when every new member belongs to the expense's event; otherwise the error is a non-field error |
| Serializer.Create | expenses/serializers.py:65-70 | the created expense carries the given fields. Its split is the given one stored as a set: no participant twice, the same members as given, first occurrences kept, and empty when none is given. Creation succeeds exactly when the payer and every split member belong to the event, and a foreign payer is reported under `payer` |
| Serializer.ValidatedCreateSucceeds | expenses/serializers.py:40-70 | input accepted by `validate` always creates an expense, and its amount is positive |
| Serializer.CreatedExpenseIsResolvable | expenses/serializers.py:65-70 | a created expense passes the stored-expense check and never makes the balance computation fail |
| Serializer.Update | expenses/serializers.py:72-80 | every given field replaces the stored one and the rest are kept. A given split is stored as a set: no participant twice and the same members as given. The update succeeds exactly when the assigned expense passes its check against its old split and every member of a new split belongs to the event |
| Serializer.UpdateNothing | expenses/serializers.py:72-80 | an update with no fields returns the instance unchanged, and fails only when the instance itself fails its check |
| Serializer.UpdateIdempotent | expenses/serializers.py:72-80 | repeating a successful update changes nothing more |
| Serializer.UpdateCompose | expenses/serializers.py:72-80 | when two successive updates succeed and the single update with the second's fields overriding the first's also succeeds, the two give the same expense |
| Serializer.Dedup | expenses/serializers.py:69 | the split `split_between.set` stores: no participant twice, and exactly the members of the given list |
| Serializer.DedupKeepsDistinct | expenses/serializers.py:69 | a list without repeats is stored as given |
| Serializer.DedupFresh | expenses/serializers.py:69 | a participant not listed before is added at the end |
| Serializer.DedupSeen | expenses/serializers.py:69 | a participant listed before is stored once only |
| Serializer.RepeatedSplitStoredOnce | expenses/serializers.py:72-80 | an update whose split names a participant twice passes `validate`, and the stored split holds that participant once |
| Serializer.UpdateChecksOldSplit | expenses/serializers.py:72-80 | moving an expense to another event, together with a valid new split, passes `validate` but fails in `update` under `split_between`, because the model check still sees the old split |
| Views.SplitOnComma | expenses/views.py:119 | splitting on commas gives at least one piece, no piece holds a comma, and joining the pieces with commas gives the text back |
| Views.SplitJoin | expenses/views.py:119 | splitting the comma-join of comma-free pieces returns those pieces |
| Views.NonEmpty | expenses/views.py:119 | the kept pieces are the input in order with the empty pieces deleted: a subsequence holding every non-empty piece as often as it occurs, and no empty one |
| Views.ParseIds | expenses/views.py:116-119 | text is read as its comma-separated pieces in order, repeats kept and empty pieces dropped; a list is taken as it is |
| Views.ParseIdsJoin | expenses/views.py:116-119 | a list of non-empty, comma-free ids sent as comma-separated text is read back exactly |
| Views.CountCheck | expenses/views.py:120-122 | the count check passes exactly when the ids are distinct and all exist, so a repeated id is rejected as if it did not exist |
| Views.Resolve | expenses/views.py:96-122 | each error is characterised exactly, in the source's order: an unknown event, then an unknown category, then a split that fails the count check. On success, each value that was given is resolved to an existing row, and each that was not stays unset |
| Views.DetailOf | expenses/views.py:130 | a non-empty field-error dictionary is used as it is. A plain message list goes under `non_field_errors`, and an empty field dictionary gives an empty list there |
| Views.Rekey | expenses/views.py:131-132 | a `split_between` error is moved to `split_between_ids` unless that key is already present; every other key is kept |
| Views.RekeyIdempotent | expenses/views.py:131-132 | renaming the split key twice is the same as renaming it once |
| Views.PerformCreate | expenses/views.py:93-133 | a resolution error is returned before anything is saved. A failing save or split assignment returns its errors with the split key renamed. On success the saved expense is returned, with the resolved split when one was given |
| Views.RejectedBeforeSave | expenses/views.py:104-122 | when resolution fails, the outcome of the save cannot matter |
| Views.NoSplitIgnoresLink | expenses/views.py:126-127 | without split ids the split is never assigned |
| Views.SplitErrorRenamed | expenses/views.py:129-133 | a model error under `split_between` reaches the client under `split_between_ids` |
| Views.OnlyCommas | expenses/views.py:116-122 | split ids consisting only of commas resolve to an empty split |
| Views.RepeatedIdRejected | expenses/views.py:116-122 | the text `1,1` keeps both pieces, so the count check rejects it even though participant 1 exists |
| Scenarios.TwoExpenseBalances | expenses/models.py:38-61 | worked example: 30.00 paid by A for all three, then 12.00 paid by B for B and C, gives A +20.00, B −4.00, C −16.00 |
| Scenarios.TwoExpenseSettlement | expenses/models.py:63-110 | worked example: the plan is B→A 4.00 then C→A 16.00, in participant order |
| Scenarios.ThreeWayBalances | expenses/models.py:38-61 | 10.00 split three ways leaves balances of exactly +20/3, −10/3 and −10/3 currency units |
| Scenarios.ThreeWaySettlement | expenses/models.py:63-110 | after rounding to +6.67, −3.33 and −3.33, the plan is B→A 3.33 and C→A 3.33, so one cent stays unsettled |

## Left out

- Decimal context: `Decimal` division and the running sums round to 28 significant digits; the model computes balances exactly. A balance lying within that rounding error of a half cent could round the other way in the source. The source therefore conserves money only up to that rounding: 10.00 paid by A and split among A, B and C gives 6.666666666666666666666666667 and −3.333333333333333333333333333 twice, which sum to 1E-27. `Balances.BalancesSumToZero`, `Balances.ExpenseConservesTotal` and `Balances.ApplyAllConservesTotal` are exact for the model and hold only approximately for the source.
- Output format: the plan names payer and payee by `name` and converts amounts with `float`. The model gives participant ids and integer cents. Names are unique within an event, so the mapping is one to one.
- Database: the ORM, querysets, `full_clean`'s field validation (maximum lengths, decimal places, `MinValueValidator`) and the unique and check constraints. The validators read an immutable snapshot (`Db`) instead.
- Clean.CleanExpense, Serializer.GuardSplit, Serializer.Create, Serializer.Update: require the event, payer and split members they look up to exist. `full_clean` records a missing row as a field error and still calls `clean`, whose reads of `self.payer` and `self.event` (models.py:156) would then raise. The serializer's related fields have already resolved these ids to rows, so that read is not modelled for expenses. `Clean.CleanSettlement` does model it.
- Key types: primary keys are compared as text. Django's coercion of `"7"` to `7` in lookups is not modelled.
- The `payer is None` branch of `get_balance` is not modelled: `payer` is a non-null foreign key with cascading delete, so it is never `None`.
- The `debtor is not None and creditor is not None` test in `get_settlement` is not modelled: only participants found in the lookup are added to either list, so it always holds.
- Serializer.Create, Serializer.Update, Views.PerformCreate: a failure after the row is written does not undo the write. `Expense.objects.create` (serializers.py:68), `instance.save()` (serializers.py:77) and `serializer.save` (views.py:125) store the expense before the split is assigned, and no transaction is visible around them. A create rejected by the split check therefore leaves an expense with an empty split, which `get_balance` shares among everyone. An update rejected there keeps its new fields. The model's `Failure` does not say that anything was stored.
- Views.PerformCreate: the outcomes of `serializer.save` and of the split assignment are parameters, not computed. The model states how they are combined, not that `save` runs the serializer's `create`.
- The other views, serializers and endpoints: authentication, CRUD for events, participants and categories, the admin, the forms and the front end.
- Serializer.Dedup: a many-to-many relation has no order of its own. The model keeps the first occurrence of each participant, in order. Order only changes the sequence in which `get_balance` debits the split members, not the amounts.
- The signal's wiring (`pre_add`/`pre_set` on `split_between`) is left out. Its check is modelled as `Serializer.GuardSplit`, applied wherever a split is assigned.

=== FILE: balances.dfy ===
/**
 * The first stage of the settlement engine (`Event.get_balance`): each
 * participant's net position after all expenses. Balances are exact reals in
 * cents: positive means the participant is owed money, negative that they owe.
 */
module Balances {
  import opened Wrappers
  import opened Entities

  type Balances = map<Pid, real>

  /** Every listed participant at zero. */
  function Initial(ids: seq<Pid>): (b: Balances)
    ensures forall p :: p in b <==> p in ids
    ensures forall p :: p in b ==> b[p] == 0.0
  {
    map p | p in ids :: 0.0
  }

  /** The participants an expense is divided among: its split, or everyone when the split is empty. */
  function SplitOf(everyone: seq<Pid>, e: Expense): seq<Pid>
  {
    if |e.split| == 0 then everyone else e.split
  }

  /** What one split member is debited: the amount divided exactly by the split's size. */
  function Share(everyone: seq<Pid>, e: Expense): real
    requires |SplitOf(everyone, e)| > 0
  {
    e.amount as real / |SplitOf(everyone, e)| as real
  }

  /**
   * What an expense adds to participant `p`'s balance, in closed form: the
   * payer gains the amount, each split member loses one share, and an
   * expense with nobody to split among changes nothing.
   */
  function Effect(everyone: seq<Pid>, e: Expense, p: Pid): real
  {
    var split := SplitOf(everyone, e);
    if |split| == 0 then 0.0
    else (if p == e.payer then e.amount as real else 0.0) - Scaled(multiset(split)[p], Share(everyone, e))
  }

  /** The sum of the effects of a list of expenses on `p`. */
  function NetEffect(everyone: seq<Pid>, es: seq<Expense>, p: Pid): real
  {
    if |es| == 0 then 0.0 else Effect(everyone, es[0], p) + NetEffect(everyone, es[1..], p)
  }

  /** The expense touches only participants that have a balance entry (no `KeyError`). */
  predicate Resolvable(keys: set<Pid>, everyone: seq<Pid>, e: Expense)
  {
    var split := SplitOf(everyone, e);
    |split| == 0 || (e.payer in keys && forall m :: m in split ==> m in keys)
  }

  /** `x` added up `n` times, that is `n · x`, kept additive so that proofs stay linear. */
  function Scaled(n: nat, x: real): real
  {
    if n == 0 then 0.0 else x + Scaled(n - 1, x)
  }

  /** `members[k]` is the first member without an entry in `b`. */
  predicate FirstMissing(b: Balances, members: seq<Pid>, k: int)
  {
    0 <= k < |members| && members[k] !in b && forall j :: 0 <= j < k ==> members[j] in b
  }

  /** The first member without an entry in `b`, where the debit loop raises `KeyError`. */
  function Missing(b: Balances, members: seq<Pid>): (r: Option<Pid>)
    ensures r.None? <==> forall m :: m in members ==> m in b
    ensures r.Some? ==> exists k :: FirstMissing(b, members, k) && members[k] == r.value
    decreases |members|
  {
    if |members| == 0 then None
    else if members[0] !in b then
      assert FirstMissing(b, members, 0);
      Some(members[0])
    else
      var r := Missing(b, members[1..]);
      assert forall m :: m in members ==> m == members[0] || m in members[1..];
      if r.Some? then
        var k :| FirstMissing(b, members[1..], k) && members[1..][k] == r.value;
        assert FirstMissing(b, members, k + 1);
        r
      else
        r
  }

  /**
   * Debits `share` from each member in turn. The loop never adds or removes
   * an entry, so whether a member has one can be decided up front.
   */
  function Debit(b: Balances, members: seq<Pid>, share: real): (r: Balances)
    requires forall m :: m in members ==> m in b
    ensures r.Keys == b.Keys
    decreases |members|
  {
    if |members| == 0 then b
    else
      var m := members[0];
      assert forall x :: x in members[1..] ==> x in members;
      Debit(b[m := b[m] - share], members[1..], share)
  }

  /** Each balance loses one share per occurrence of its owner among the members. */
  lemma {:induction false} DebitValues(b: Balances, members: seq<Pid>, share: real, p: Pid)
    requires forall m :: m in members ==> m in b
    requires p in b
    ensures Debit(b, members, share)[p] == b[p] - Scaled(multiset(members)[p], share)
    decreases |members|
  {
    if |members| > 0 {
      var m := members[0];
      assert forall x :: x in members[1..] ==> x in members;
      DebitValues(b[m := b[m] - share], members[1..], share, p);
      assert members == [m] + members[1..];
      var n := multiset(members[1..])[p];
      assert multiset(members)[p] == if m == p then n + 1 else n;
    }
  }

  /**
   * One iteration of the expense loop: debit every member of the split by
   * one share, then credit the payer the full amount.
   */
  function ApplyExpense(b: Balances, everyone: seq<Pid>, e: Expense): (r: Result<Balances, Pid>)
    ensures r.Success? <==> Resolvable(b.Keys, everyone, e)
    ensures r.Success? ==> r.value.Keys == b.Keys
    ensures r.Success? ==> forall p :: p in b ==> r.value[p] == b[p] + Effect(everyone, e, p)
    ensures r.Failure? ==> r.error !in b && (r.error in SplitOf(everyone, e) || r.error == e.payer)
    ensures r.Success? ==> forall p :: p in b && p != e.payer && p !in SplitOf(everyone, e) ==> r.value[p] == b[p]
    ensures |SplitOf(everyone, e)| == 0 ==> r == Success(b)
  {
    var split := SplitOf(everyone, e);
    if |split| == 0 then Success(b)
    else
      match Missing(b, split)
      case Some(x) => Failure(x)
      case None =>
        var b1 := Debit(b, split, Share(everyone, e));
        if e.payer in b1 then
          var r := b1[e.payer := b1[e.payer] + e.amount as real];
          assert forall p :: p in b ==> r[p] == b[p] + Effect(everyone, e, p) by {
            forall p | p in b
              ensures r[p] == b[p] + Effect(everyone, e, p)
            {
              DebitValues(b, split, Share(everyone, e), p);
            }
          }
          Success(r)
        else Failure(e.payer)
  }

  /** The expense loop: apply each expense in order, stopping at the first failure. */
  function ApplyAll(b: Balances, everyone: seq<Pid>, es: seq<Expense>): (r: Result<Balances, Pid>)
    ensures r.Success? <==> forall e :: e in es ==> Resolvable(b.Keys, everyone, e)
    ensures r.Success? ==> r.value.Keys == b.Keys
    ensures r.Success? ==> forall p :: p in b ==> r.value[p] == b[p] + NetEffect(everyone, es, p)
    decreases |es|
  {
    if |es| == 0 then Success(b)
    else
      match ApplyExpense(b, everyone, es[0])
      case Failure(x) => Failure(x)
      case Success(b1) =>
        assert es == [es[0]] + es[1..];
        ApplyAll(b1, everyone, es[1..])
  }

  /** `Event.get_balance`: each participant's net balance, or the id that raised `KeyError`. */
  function GetBalance(ev: Event): (r: Result<Balances, Pid>)
    ensures r.Success? <==> forall e :: e in ev.expenses ==> Resolvable((set p | p in Ids(ev.participants)), Ids(ev.participants), e)
    ensures r.Success? ==> forall p :: p in r.value <==> p in Ids(ev.participants)
    ensures r.Success? ==> forall p :: p in r.value ==> r.value[p] == NetEffect(Ids(ev.participants), ev.expenses, p)
  {
    var ids := Ids(ev.participants);
    var b := Initial(ids);
    assert b.Keys == set p | p in ids;
    ApplyAll(b, ids, ev.expenses)
  }

  /** The sum of the balances of the listed participants. */
  function Total(ids: seq<Pid>, b: Balances): real
    requires forall p :: p in ids ==> p in b
  {
    if |ids| == 0 then 0.0 else b[ids[0]] + Total(ids[1..], b)
  }

  lemma {:induction false} ScaledIsProduct(n: nat, x: real)
    ensures Scaled(n, x) == n as real * x
    decreases n
  {
    if n > 0 {
      ScaledIsProduct(n - 1, x);
      assert n as real * x == (n - 1) as real * x + x;
    }
  }

  /** Dividing an amount among `n` and adding the `n` shares back gives the amount exactly. */
  lemma SharesAddUp(n: nat, amount: real)
    requires n > 0
    ensures Scaled(n, amount / n as real) == amount
  {
    ScaledIsProduct(n, amount / n as real);
  }

  lemma {:induction false} TotalFrame(ids: seq<Pid>, b: Balances, b': Balances)
    requires forall p :: p in ids ==> p in b && p in b' && b[p] == b'[p]
    ensures Total(ids, b) == Total(ids, b')
    decreases |ids|
  {
    if |ids| > 0 {
      TotalFrame(ids[1..], b, b');
    }
  }

  lemma {:induction false} TotalUpdate(ids: seq<Pid>, b: Balances, x: Pid, v: real)
    requires Distinct(ids) && x in ids
    requires forall p :: p in ids ==> p in b
    ensures Total(ids, b[x := v]) == Total(ids, b) - b[x] + v
    decreases |ids|
  {
    if ids[0] == x {
      assert x !in ids[1..];
      TotalFrame(ids[1..], b[x := v], b);
    } else {
      TotalUpdate(ids[1..], b, x, v);
    }
  }

  lemma {:induction false} TotalInitial(ids: seq<Pid>, b: Balances)
    requires forall p :: p in ids ==> p in b && b[p] == 0.0
    ensures Total(ids, b) == 0.0
    decreases |ids|
  {
    if |ids| > 0 {
      TotalInitial(ids[1..], b);
    }
  }

  /** Debiting `n` members one share each lowers the total by `n` shares. */
  lemma {:induction false} DebitLowersTotal(ids: seq<Pid>, b: Balances, members: seq<Pid>, share: real)
    requires Distinct(ids) && forall p :: p in b <==> p in ids
    requires forall m :: m in members ==> m in b
    ensures Total(ids, Debit(b, members, share)) == Total(ids, b) - Scaled(|members|, share)
    decreases |members|
  {
    if |members| > 0 {
      var m := members[0];
      var b' := b[m := b[m] - share];
      assert Debit(b, members, share) == Debit(b', members[1..], share);
      TotalUpdate(ids, b, m, b[m] - share);
      assert forall x :: x in members[1..] ==> x in members;
      DebitLowersTotal(ids, b', members[1..], share);
    }
  }

  /** Once nobody is missing and the payer has an entry, the expense is the debits followed by the credit. */
  lemma ApplyExpenseSteps(b: Balances, everyone: seq<Pid>, e: Expense)
    requires |SplitOf(everyone, e)| > 0
    requires forall m :: m in SplitOf(everyone, e) ==> m in b
    requires e.payer in b
    ensures var b1 := Debit(b, SplitOf(everyone, e), Share(everyone, e));
            ApplyExpense(b, everyone, e) == Success(b1[e.payer := b1[e.payer] + e.amount as real])
  {
  }

  /** Conservation, one expense at a time: the payer's credit equals the split members' debits. */
  lemma ExpenseConservesTotal(ids: seq<Pid>, b: Balances, e: Expense)
    requires Distinct(ids) && forall p :: p in b <==> p in ids
    requires Resolvable(b.Keys, ids, e)
    ensures ApplyExpense(b, ids, e).Success?
    ensures Total(ids, ApplyExpense(b, ids, e).value) == Total(ids, b)
  {
    var split := SplitOf(ids, e);
    if |split| > 0 {
      var share := Share(ids, e);
      DebitLowersTotal(ids, b, split, share);
      var b1 := Debit(b, split, share);
      ApplyExpenseSteps(b, ids, e);
      TotalUpdate(ids, b1, e.payer, b1[e.payer] + e.amount as real);
      SharesAddUp(|split|, e.amount as real);
    }
  }

  lemma {:induction false} ApplyAllConservesTotal(ids: seq<Pid>, b: Balances, es: seq<Expense>)
    requires Distinct(ids) && forall p :: p in b <==> p in ids
    requires ApplyAll(b, ids, es).Success?
    ensures Total(ids, ApplyAll(b, ids, es).value) == Total(ids, b)
    decreases |es|
  {
    if |es| > 0 {
      assert es[0] in es;
      ExpenseConservesTotal(ids, b, es[0]);
      var b1 := ApplyExpense(b, ids, es[0]).value;
      ApplyAllConservesTotal(ids, b1, es[1..]);
    }
  }

  /**
   * Conservation law: with exact division, the balances of an event's
   * participants always add up to zero.
   */
  lemma BalancesSumToZero(ev: Event)
    requires Distinct(Ids(ev.participants))
    requires GetBalance(ev).Success?
    ensures Total(Ids(ev.participants), GetBalance(ev).value) == 0.0
  {
    var ids := Ids(ev.participants);
    var b := Initial(ids);
    TotalInitial(ids, b);
    ApplyAllConservesTotal(ids, b, ev.expenses);
  }

  lemma {:induction false} NetEffectAppend(everyone: seq<Pid>, xs: seq<Expense>, ys: seq<Expense>, p: Pid)
    ensures NetEffect(everyone, xs + ys, p) == NetEffect(everyone, xs, p) + NetEffect(everyone, ys, p)
    decreases |xs|
  {
    if |xs| > 0 {
      assert (xs + ys)[0] == xs[0];
      assert (xs + ys)[1..] == xs[1..] + ys;
      NetEffectAppend(everyone, xs[1..], ys, p);
    } else {
      assert xs + ys == ys;
    }
  }

  /** Taking the same element out of two permutations of each other leaves permutations. */
  lemma RemoveMatching(es: seq<Expense>, fs: seq<Expense>, k: nat)
    requires multiset(es) == multiset(fs) && |es| > 0
    requires k < |fs| && fs[k] == es[0]
    ensures multiset(es[1..]) == multiset(fs[..k] + fs[k + 1..])
  {
    var e := es[0];
    assert es == [e] + es[1..];
    assert fs == fs[..k] + [e] + fs[k + 1..];
    assert multiset(es) == multiset{e} + multiset(es[1..]);
    assert multiset(fs) == multiset(fs[..k]) + multiset{e} + multiset(fs[k + 1..]);
    var rest := fs[..k] + fs[k + 1..];
    assert multiset(rest) == multiset(fs[..k]) + multiset(fs[k + 1..]);
    forall x
      ensures multiset(es[1..])[x] == multiset(rest)[x]
    {
      assert multiset(es)[x] == multiset{e}[x] + multiset(es[1..])[x];
      assert multiset(fs)[x] == multiset(fs[..k])[x] + multiset{e}[x] + multiset(fs[k + 1..])[x];
    }
  }

  /** The combined effect of a list of expenses does not depend on their order. */
  lemma {:induction false} NetEffectPermutation(everyone: seq<Pid>, es: seq<Expense>, fs: seq<Expense>, p: Pid)
    requires multiset(es) == multiset(fs)
    ensures NetEffect(everyone, es, p) == NetEffect(everyone, fs, p)
    decreases |es|
  {
    if |es| == 0 {
      assert |fs| == |multiset(fs)| == 0;
    } else {
      var e := es[0];
      assert e in multiset(fs);
      var k :| 0 <= k < |fs| && fs[k] == e;
      var rest := fs[..k] + fs[k + 1..];
      RemoveMatching(es, fs, k);
      NetEffectPermutation(everyone, es[1..], rest, p);
      NetEffectSplitAt(everyone, fs, k, p);
    }
  }

  /** The effect of one expense can be taken out of the middle of the list. */
  lemma NetEffectSplitAt(everyone: seq<Pid>, fs: seq<Expense>, k: nat, p: Pid)
    requires k < |fs|
    ensures NetEffect(everyone, fs, p) == Effect(everyone, fs[k], p) + NetEffect(everyone, fs[..k] + fs[k + 1..], p)
  {
    var tail := [fs[k]] + fs[k + 1..];
    NetEffectAppend(everyone, fs[..k], fs[k + 1..], p);
    NetEffectAppend(everyone, fs[..k], tail, p);
    assert fs[..k] + tail == fs;
    assert tail[0] == fs[k] && tail[1..] == fs[k + 1..];
  }

  /** Reordering the expenses changes neither whether the loop succeeds nor what it yields. */
  lemma ApplyAllOrderIndependent(b: Balances, everyone: seq<Pid>, es: seq<Expense>, fs: seq<Expense>)
    requires multiset(es) == multiset(fs)
    ensures ApplyAll(b, everyone, fs).Success? == ApplyAll(b, everyone, es).Success?
    ensures ApplyAll(b, everyone, es).Success? ==> ApplyAll(b, everyone, fs) == ApplyAll(b, everyone, es)
  {
    forall e
      ensures e in es <==> e in fs
    {
      assert e in es <==> e in multiset(es);
      assert e in fs <==> e in multiset(fs);
    }
    if ApplyAll(b, everyone, es).Success? {
      var r := ApplyAll(b, everyone, es).value;
      var r' := ApplyAll(b, everyone, fs).value;
      forall p | p in r
        ensures r[p] == r'[p]
      {
        NetEffectPermutation(everyone, es, fs, p);
      }
      assert r == r';
    }
  }

  /**
   * The balances do not depend on the order of the expenses: any reordering
   * succeeds exactly when the original does and yields the same balances.
   */
  lemma GetBalanceOrderIndependent(ev: Event, fs: seq<Expense>)
    requires multiset(ev.expenses) == multiset(fs)
    ensures GetBalance(ev.(expenses := fs)).Success? == GetBalance(ev).Success?
    ensures GetBalance(ev).Success? ==> GetBalance(ev.(expenses := fs)) == GetBalance(ev)
  {
    var ids := Ids(ev.participants);
    ApplyAllOrderIndependent(Initial(ids), ids, ev.expenses, fs);
  }
}

=== FILE: clean.dfy ===
/**
 * The `clean` rules the models run before every save: a participant's name
 * is stripped and must not be empty, an expense's payer (and, once the
 * expense exists, its split) must belong to the expense's event, and a
 * settlement must name two different participants of its event.
 */
module Clean {
  import opened Wrappers
  import opened Entities
  import opened Balances
  import opened Settlements

  /** Python's `str.isspace` on one character: the characters `str.strip()` removes. */
  predicate IsSpace(c: char)
  {
    || ('\t' <= c <= '\r')
    || ('\U{1C}' <= c <= ' ')
    || c == '\U{85}' || c == '\U{A0}' || c == '\U{1680}'
    || ('\U{2000}' <= c <= '\U{200A}')
    || c == '\U{2028}' || c == '\U{2029}' || c == '\U{202F}' || c == '\U{205F}' || c == '\U{3000}'
  }

  predicate AllSpace(s: string)
  {
    forall i :: 0 <= i < |s| ==> IsSpace(s[i])
  }

  /** Neither end of `s` is whitespace. */
  predicate Trimmed(s: string)
  {
    |s| == 0 || (!IsSpace(s[0]) && !IsSpace(s[|s| - 1]))
  }

  /** `str.lstrip()`: `s` without its leading whitespace. */
  function TrimLeft(s: string): (r: string)
    ensures |r| <= |s| && r == s[|s| - |r|..]
    ensures AllSpace(s[..|s| - |r|])
    ensures |r| > 0 ==> !IsSpace(r[0])
    decreases |s|
  {
    if |s| > 0 && IsSpace(s[0]) then TrimLeft(s[1..]) else s
  }

  /** `str.rstrip()`: `s` without its trailing whitespace. */
  function TrimRight(s: string): (r: string)
    ensures |r| <= |s| && r == s[..|r|]
    ensures AllSpace(s[|r|..])
    ensures |r| > 0 ==> !IsSpace(r[|r| - 1])
    decreases |s|
  {
    if |s| > 0 && IsSpace(s[|s| - 1]) then TrimRight(s[..|s| - 1]) else s
  }

  /** `str.strip()`. */
  function Strip(s: string): (r: string)
    ensures Trimmed(r)
    ensures |r| == 0 <==> AllSpace(s)
  {
    TrimRight(TrimLeft(s))
  }

  lemma {:induction false} TrimLeftSkips(lead: string, rest: string)
    requires AllSpace(lead)
    requires |rest| == 0 || !IsSpace(rest[0])
    ensures TrimLeft(lead + rest) == rest
    decreases |lead|
  {
    if |lead| == 0 {
      assert lead + rest == rest;
    } else {
      assert (lead + rest)[0] == lead[0];
      assert (lead + rest)[1..] == lead[1..] + rest;
      TrimLeftSkips(lead[1..], rest);
    }
  }

  lemma {:induction false} TrimRightSkips(rest: string, trail: string)
    requires AllSpace(trail)
    requires |rest| == 0 || !IsSpace(rest[|rest| - 1])
    ensures TrimRight(rest + trail) == rest
    decreases |trail|
  {
    if |trail| == 0 {
      assert rest + trail == rest;
    } else {
      var s := rest + trail;
      assert s[|s| - 1] == trail[|trail| - 1];
      assert s[..|s| - 1] == rest + trail[..|trail| - 1];
      TrimRightSkips(rest, trail[..|trail| - 1]);
    }
  }

  /**
   * `Strip` is characterised by its result: surrounding a trimmed string
   * with whitespace on either side and stripping gives the string back.
   */
  lemma StripSurrounded(lead: string, core: string, trail: string)
    requires AllSpace(lead) && AllSpace(trail) && Trimmed(core)
    ensures Strip(lead + core + trail) == core
  {
    if |core| == 0 {
      assert lead + core + trail == lead + trail;
      assert AllSpace(lead + trail) by {
        forall i | 0 <= i < |lead + trail|
          ensures IsSpace((lead + trail)[i])
        {
          if i >= |lead| {
            assert (lead + trail)[i] == trail[i - |lead|];
          }
        }
      }
    } else {
      assert lead + core + trail == lead + (core + trail);
      assert (core + trail)[0] == core[0];
      TrimLeftSkips(lead, core + trail);
      TrimRightSkips(core, trail);
    }
  }

  /** Stripping twice changes nothing more. */
  lemma StripIdempotent(s: string)
    ensures Strip(Strip(s)) == Strip(s)
  {
    var r := Strip(s);
    StripSurrounded("", r, "");
    assert "" + r + "" == r;
  }

  /**
   * `Participant.clean`: a non-empty name is stripped, and a name that is
   * then empty fails under `name`. On success the cleaned name is returned.
   */
  function CleanParticipantName(name: string): (r: Result<string, ErrorKey>)
    ensures r.Failure? <==> AllSpace(name)
    ensures r.Failure? ==> r.error == NameKey
    ensures r.Success? ==> |r.value| > 0 && Trimmed(r.value)
  {
    var n := if |name| > 0 then Strip(name) else name;
    if |n| == 0 then Failure(NameKey) else Success(n)
  }

  /** A name that has been cleaned once passes the rule again unchanged. */
  lemma CleanParticipantNameIdempotent(name: string)
    requires CleanParticipantName(name).Success?
    ensures CleanParticipantName(CleanParticipantName(name).value) == CleanParticipantName(name)
  {
    StripIdempotent(name);
  }

  /** Whitespace around a valid name is removed and nothing else. */
  lemma CleanParticipantNameKeepsCore(lead: string, core: string, trail: string)
    requires AllSpace(lead) && AllSpace(trail) && Trimmed(core) && |core| > 0
    ensures CleanParticipantName(lead + core + trail) == Success(core)
  {
    StripSurrounded(lead, core, trail);
  }

  /** The first member of `split` that is not in event `ev`, as an error under `split_between`. */
  function CheckSplit(split: seq<Pid>, ev: Eid, db: Db): (r: Outcome<ErrorKey>)
    requires forall m :: m in split ==> m in db.participantEvent
    ensures r == Pass <==> forall m :: m in split ==> InEvent(db, m, ev)
    ensures r.Fail? ==> r.error == SplitBetweenKey
  {
    if |split| == 0 then Pass
    else if db.participantEvent[split[0]] != ev then assert split[0] in split; Fail(SplitBetweenKey)
    else CheckSplit(split[1..], ev, db)
  }

  /**
   * `Expense.clean`: the payer must belong to the expense's event; once the
   * expense is stored (`persisted`), so must every member of its current
   * split. The payer is checked first.
   */
  function CleanExpense(e: Expense, persisted: bool, db: Db): (r: Outcome<ErrorKey>)
    requires e.payer in db.participantEvent
    requires persisted ==> forall m :: m in e.split ==> m in db.participantEvent
    ensures r == Pass <==>
              && InEvent(db, e.payer, e.event)
              && (persisted ==> forall m :: m in e.split ==> InEvent(db, m, e.event))
    ensures r == Fail(PayerKey) <==> !InEvent(db, e.payer, e.event)
    ensures r.Fail? ==> r.error == PayerKey || r.error == SplitBetweenKey
  {
    if db.participantEvent[e.payer] != e.event then Fail(PayerKey)
    else if persisted then CheckSplit(e.split, e.event, db)
    else Pass
  }

  /**
   * How `Settlement.clean` can stop: with a `ValidationError` under a field
   * key, or because it reads a required related participant whose key is
   * unset or names no row. That read raises `RelatedObjectDoesNotExist` (or
   * `DoesNotExist`), which is not a validation error and reaches the caller
   * as it is.
   */
  datatype SettlementError = Invalid(key: ErrorKey) | NoRelated(field: ErrorKey)

  /**
   * `Settlement.clean`. Paying oneself fails under `to_participant`; the
   * ids are compared without reading the participants. Then, when the event
   * is set, the payer is read and must belong to it (`from_participant`),
   * and then the payee (`to_participant`).
   */
  function CleanSettlement(s: Settlement, db: Db): (r: Outcome<SettlementError>)
    ensures r == Pass <==>
              && !(s.from.Some? && s.to.Some? && s.from.value == s.to.value)
              && (s.event.Some? ==>
                    && s.from.Some? && InEvent(db, s.from.value, s.event.value)
                    && s.to.Some? && InEvent(db, s.to.value, s.event.value))
    ensures r == Fail(NoRelated(FromParticipantKey)) <==>
              && !(s.from.Some? && s.to.Some? && s.from.value == s.to.value)
              && s.event.Some? && (s.from.None? || s.from.value !in db.participantEvent)
    ensures r == Fail(Invalid(FromParticipantKey)) <==>
              && !(s.from.Some? && s.to.Some? && s.from.value == s.to.value)
              && s.event.Some? && s.from.Some? && s.from.value in db.participantEvent
              && !InEvent(db, s.from.value, s.event.value)
    ensures r == Fail(NoRelated(ToParticipantKey)) <==>
              && !(s.from.Some? && s.to.Some? && s.from.value == s.to.value)
              && s.event.Some? && s.from.Some? && InEvent(db, s.from.value, s.event.value)
              && (s.to.None? || s.to.value !in db.participantEvent)
    ensures r == Fail(Invalid(ToParticipantKey)) <==>
              || (s.from.Some? && s.to.Some? && s.from.value == s.to.value)
              || (&& s.event.Some? && s.from.Some? && InEvent(db, s.from.value, s.event.value)
                  && s.to.Some? && s.to.value in db.participantEvent
                  && !InEvent(db, s.to.value, s.event.value))
  {
    if s.from.Some? && s.to.Some? && s.from.value == s.to.value then Fail(Invalid(ToParticipantKey))
    else if s.event.Some? then
      if s.from.None? || s.from.value !in db.participantEvent then Fail(NoRelated(FromParticipantKey))
      else if db.participantEvent[s.from.value] != s.event.value then Fail(Invalid(FromParticipantKey))
      else if s.to.None? || s.to.value !in db.participantEvent then Fail(NoRelated(ToParticipantKey))
      else if db.participantEvent[s.to.value] != s.event.value then Fail(Invalid(ToParticipantKey))
      else Pass
    else Pass
  }

  /** With the event set, an unset payer makes the rule raise instead of rejecting or passing. */
  lemma UnsetPayerRaises()
    ensures CleanSettlement(Settlement(Some("x"), None, Some("b"), 100), Db(map["b" := "x"], {"x"}, {}))
         == Fail(NoRelated(FromParticipantKey))
    ensures CleanSettlement(Settlement(Some("x"), Some("a"), None, 100), Db(map["a" := "x"], {"x"}, {}))
         == Fail(NoRelated(ToParticipantKey))
    ensures CleanSettlement(Settlement(None, None, Some("b"), 100), Db(map["b" := "x"], {"x"}, {})) == Pass
  {
  }

  /**
   * Expenses that pass their stored-expense check never fail the balance
   * computation: every payer and split member has a balance entry.
   */
  lemma CleanExpensesBalance(db: Db, ev: Event)
    requires Snapshot(db, ev)
    requires forall e :: e in ev.expenses ==>
               && e.payer in db.participantEvent
               && (forall m :: m in e.split ==> m in db.participantEvent)
               && CleanExpense(e, true, db) == Pass
    ensures GetBalance(ev).Success?
  {
    var ids := Ids(ev.participants);
    forall e | e in ev.expenses
      ensures Resolvable((set p | p in ids), ids, e)
    {
      assert InEvent(db, e.payer, ev.id);
      forall m | m in e.split
        ensures m in ids
      {
        assert InEvent(db, m, ev.id);
      }
    }
  }

  /** Every transfer the settlement plan proposes, once recorded, passes `Settlement.clean`. */
  lemma RecordedTransfersAreClean(db: Db, ev: Event)
    requires Snapshot(db, ev)
    requires GetSettlement(ev).Success?
    ensures forall t :: t in GetSettlement(ev).value ==>
              CleanSettlement(Settlement(Some(ev.id), Some(t.from), Some(t.to), t.amount), db) == Pass
  {
    var b := GetBalance(ev).value;
    forall t | t in GetSettlement(ev).value
      ensures InEvent(db, t.from, ev.id) && InEvent(db, t.to, ev.id) && t.from != t.to
    {
      assert t.from in Ids(ev.participants) && t.to in Ids(ev.participants);
    }
  }
}

=== FILE: entities.dfy ===
/**
 * The persistent entities of the expense tracker, read from the database as
 * an immutable snapshot: events, their participants and expenses, recorded
 * settlement payments, and the keys under which validation errors are
 * reported.
 */
module Entities {
  import opened Wrappers

  /** Primary keys, compared in their textual form. */
  type Pid = string
  type Eid = string
  type Cid = string

  /** A member of one event; names are unique within the event. */
  datatype Participant = Participant(id: Pid, event: Eid, name: string, email: string)

  /**
   * A stored expense. `amount` is in cents (the field holds two decimal
   * places); `split` lists the participants sharing it, in the order the
   * database lists them, and an empty split means "everyone". The stored
   * relation holds each participant at most once (`Serializer.Dedup`); the
   * type does not enforce this, and the balance computation debits a
   * participant once for every time they are listed.
   */
  datatype Expense = Expense(
    description: string,
    amount: int,
    payer: Pid,
    event: Eid,
    split: seq<Pid>,
    category: Option<Cid>)

  /**
   * An event together with its participants and expenses, in database order.
   * Participant ids are primary keys, so a database event never lists one
   * twice; the type does not enforce this, and the lemmas that need it
   * require `Distinct(Ids(participants))`.
   */
  datatype Event = Event(id: Eid, participants: seq<Participant>, expenses: seq<Expense>)

  /** A recorded payment between two participants; any foreign key may still be unset when `clean` runs. */
  datatype Settlement = Settlement(event: Option<Eid>, from: Option<Pid>, to: Option<Pid>, amount: int)

  /** The keys of the error dictionaries the validators raise. */
  datatype ErrorKey =
    | EventKey
    | PayerKey
    | SplitBetweenKey
    | SplitBetweenIdsKey
    | AmountKey
    | CategoryKey
    | NameKey
    | FromParticipantKey
    | ToParticipantKey
    | NonFieldErrorsKey

  /** The rows the validators consult: each participant's event, and the existing events and categories. */
  datatype Db = Db(participantEvent: map<Pid, Eid>, events: set<Eid>, categories: set<Cid>)

  /** `p` is a participant of event `e` (the source's `event.participants.filter(pk=p).exists()`). */
  predicate InEvent(db: Db, p: Pid, e: Eid)
  {
    p in db.participantEvent && db.participantEvent[p] == e
  }

  /**
   * `db` and `ev` describe the same rows: the participants the database
   * places in the event are exactly those listed on it, and every listed
   * expense belongs to it.
   */
  ghost predicate Snapshot(db: Db, ev: Event)
  {
    (forall p :: InEvent(db, p, ev.id) <==> p in Ids(ev.participants))
    && forall e :: e in ev.expenses ==> e.event == ev.id
  }

  /** The ids of a list of participants, in the same order. */
  function Ids(ps: seq<Participant>): (ids: seq<Pid>)
    ensures |ids| == |ps|
    ensures forall k :: 0 <= k < |ps| ==> ids[k] == ps[k].id
  {
    if |ps| == 0 then [] else [ps[0].id] + Ids(ps[1..])
  }

  /** No element occurs twice. */
  predicate Distinct<T(==)>(xs: seq<T>)
  {
    forall i, j :: 0 <= i < j < |xs| ==> xs[i] != xs[j]
  }

  /** `r` can be obtained from `xs` by deleting elements, keeping the order of the rest. */
  predicate Subsequence<T(==)>(r: seq<T>, xs: seq<T>)
    decreases |xs|
  {
    if |r| == 0 then true
    else if |xs| == 0 then false
    else (r[0] == xs[0] && Subsequence(r[1..], xs[1..])) || Subsequence(r, xs[1..])
  }
}

=== FILE: scenarios.dfy ===
/** Concrete events run through the engine. */
module Scenarios {
  import opened Wrappers
  import opened Entities
  import opened Balances
  import opened Settlements

  function Person(id: Pid): Participant
  {
    Participant(id, "trip", id, "")
  }

  /** An event with participants A, B and C. */
  function Trip(expenses: seq<Expense>): Event
  {
    Event("trip", [Person("A"), Person("B"), Person("C")], expenses)
  }

  function TwoExpenses(): seq<Expense>
  {
    [Expense("dinner", 3000, "A", "trip", [], None), Expense("taxi", 1200, "B", "trip", ["B", "C"], None)]
  }

  lemma TripIds(expenses: seq<Expense>)
    ensures Ids(Trip(expenses).participants) == ["A", "B", "C"]
    ensures Known(Trip(expenses)) == {"A", "B", "C"}
  {
  }

  /** A pays 30.00 for everyone, then B pays 12.00 for B and C. */
  lemma TwoExpenseBalances()
    ensures GetBalance(Trip(TwoExpenses())) == Success(map["A" := 2000.0, "B" := -400.0, "C" := -1600.0])
  {
    var ev := Trip(TwoExpenses());
    TripIds(TwoExpenses());
    var ids := ["A", "B", "C"];
    var e1, e2 := ev.expenses[0], ev.expenses[1];
    DinnerEffects(e1);
    TaxiEffects(e2);
    NetEffectOfTwo(ids, e1, e2, "A");
    NetEffectOfTwo(ids, e1, e2, "B");
    NetEffectOfTwo(ids, e1, e2, "C");
    assert GetBalance(ev).Success?;
    ThreeKeys(GetBalance(ev).value, 2000.0, -400.0, -1600.0);
  }

  lemma DinnerEffects(e: Expense)
    requires e == TwoExpenses()[0]
    ensures Effect(["A", "B", "C"], e, "A") == 2000.0
    ensures Effect(["A", "B", "C"], e, "B") == -1000.0
    ensures Effect(["A", "B", "C"], e, "C") == -1000.0
  {
    assert Share(["A", "B", "C"], e) == 1000.0;
    assert SplitOf(["A", "B", "C"], e) == ["A", "B", "C"];
    assert multiset(["A", "B", "C"]) == multiset{"A", "B", "C"};
    assert multiset(["A", "B", "C"])["A"] == 1;
    assert Scaled(1, 1000.0) == 1000.0;
  }

  lemma TaxiEffects(e: Expense)
    requires e == TwoExpenses()[1]
    ensures Effect(["A", "B", "C"], e, "A") == 0.0
    ensures Effect(["A", "B", "C"], e, "B") == 600.0
    ensures Effect(["A", "B", "C"], e, "C") == -600.0
  {
    assert Share(["A", "B", "C"], e) == 600.0;
    assert multiset(e.split) == multiset{"B", "C"};
    assert Scaled(1, 600.0) == 600.0;
  }

  lemma NetEffectOfTwo(everyone: seq<Pid>, e1: Expense, e2: Expense, p: Pid)
    ensures NetEffect(everyone, [e1, e2], p) == Effect(everyone, e1, p) + Effect(everyone, e2, p)
  {
    assert [e1, e2][1..] == [e2];
    assert [e2][1..] == [];
    assert NetEffect(everyone, [e2], p) == Effect(everyone, e2, p) + NetEffect(everyone, [], p);
    assert NetEffect(everyone, [e1, e2], p) == Effect(everyone, e1, p) + NetEffect(everyone, [e2], p);
  }

  lemma ThreeKeys(b: Balances, a: real, x: real, c: real)
    requires forall p :: p in b <==> p in ["A", "B", "C"]
    requires b["A"] == a && b["B"] == x && b["C"] == c
    ensures b == map["A" := a, "B" := x, "C" := c]
  {
    var m := map["A" := a, "B" := x, "C" := c];
    assert forall p :: p in ["A", "B", "C"] <==> p == "A" || p == "B" || p == "C";
    assert b.Keys == m.Keys;
  }

  /** The balances rounded to cents, already whole. */
  lemma TwoExpenseRounded()
    ensures Rounded(map["A" := 2000.0, "B" := -400.0, "C" := -1600.0]) == map["A" := 2000, "B" := -400, "C" := -1600]
  {
    var b := map["A" := 2000.0, "B" := -400.0, "C" := -1600.0];
    assert RoundHalfUp(2000.0) == 2000 && RoundHalfUp(-400.0) == -400 && RoundHalfUp(-1600.0) == -1600;
    assert Rounded(b).Keys == {"A", "B", "C"};
  }

  /** Debtors are taken in participant order, so B is listed before C even though C owes more. */
  lemma TwoExpensePartition()
    ensures Partition(["A", "B", "C"], map["A" := 2000, "B" := -400, "C" := -1600], {"A", "B", "C"})
         == ([Party("A", 2000)], [Party("B", 400), Party("C", 1600)])
  {
    var c := map["A" := 2000, "B" := -400, "C" := -1600];
    var k := {"A", "B", "C"};
    assert ["A", "B", "C"][1..] == ["B", "C"] && ["B", "C"][1..] == ["C"] && ["C"][1..] == [];
    assert Partition(["C"], c, k).1 == [Party("C", 1600)];
    assert Partition(["C"], c, k).0 == [];
    assert Partition(["B", "C"], c, k).1 == [Party("B", 400), Party("C", 1600)];
    assert Partition(["B", "C"], c, k).0 == [];
    assert Partition(["A", "B", "C"], c, k).1 == [Party("B", 400), Party("C", 1600)];
    assert Partition(["A", "B", "C"], c, k).0 == [Party("A", 2000)];
  }

  /** B settles first: 4.00 to A, then C pays A the remaining 16.00. */
  lemma TwoExpenseGreedy()
    ensures Greedy([Party("B", 400), Party("C", 1600)], [Party("A", 2000)])
         == [Transfer("B", "A", 400), Transfer("C", "A", 1600)]
  {
    assert Greedy([Party("C", 1600)], [Party("A", 1600)]) == [Transfer("C", "A", 1600)];
  }

  /**
   * The whole engine on the two-expense trip: B pays A 4.00, then C pays A
   * 16.00, and every rounded balance is settled.
   */
  lemma TwoExpenseSettlement()
    ensures GetSettlement(Trip(TwoExpenses())) == Success([Transfer("B", "A", 400), Transfer("C", "A", 1600)])
  {
    TripIds(TwoExpenses());
    TwoExpenseBalances();
    TwoExpenseRounded();
    TwoExpensePartition();
    TwoExpenseGreedy();
    GetSettlementIsGreedy(Trip(TwoExpenses()));
  }

  function Snack(): Expense
  {
    Expense("snack", 1000, "A", "trip", [], None)
  }

  lemma SnackEffects()
    ensures Effect(["A", "B", "C"], Snack(), "A") == 2000.0 / 3.0
    ensures Effect(["A", "B", "C"], Snack(), "B") == -1000.0 / 3.0
    ensures Effect(["A", "B", "C"], Snack(), "C") == -1000.0 / 3.0
  {
    var ids := ["A", "B", "C"];
    assert SplitOf(ids, Snack()) == ids;
    assert Share(ids, Snack()) == 1000.0 / 3.0;
    assert multiset(ids) == multiset{"A", "B", "C"};
    assert multiset(ids)["A"] == 1 && multiset(ids)["B"] == 1 && multiset(ids)["C"] == 1;
    assert Scaled(1, 1000.0 / 3.0) == 1000.0 / 3.0;
  }

  /** A pays 10.00 for all three: each share is 10.00 / 3, exactly. */
  lemma ThreeWayBalances()
    ensures GetBalance(Trip([Snack()])) == Success(map["A" := 2000.0 / 3.0, "B" := -1000.0 / 3.0, "C" := -1000.0 / 3.0])
  {
    var ev := Trip([Snack()]);
    TripIds([Snack()]);
    SnackEffects();
    assert [Snack()][1..] == [];
    assert GetBalance(ev).Success?;
    ThreeKeys(GetBalance(ev).value, 2000.0 / 3.0, -1000.0 / 3.0, -1000.0 / 3.0);
  }

  /** Rounded half-up, A is owed 6.67 while B and C owe 3.33 each. */
  lemma ThreeWayRounded()
    ensures Rounded(map["A" := 2000.0 / 3.0, "B" := -1000.0 / 3.0, "C" := -1000.0 / 3.0])
         == map["A" := 667, "B" := -333, "C" := -333]
  {
    var b := map["A" := 2000.0 / 3.0, "B" := -1000.0 / 3.0, "C" := -1000.0 / 3.0];
    assert RoundHalfUp(2000.0 / 3.0) == 667;
    assert RoundHalfUp(-1000.0 / 3.0) == -333;
    assert Rounded(b).Keys == {"A", "B", "C"};
  }

  lemma ThreeWayPartition()
    ensures Partition(["A", "B", "C"], map["A" := 667, "B" := -333, "C" := -333], {"A", "B", "C"})
         == ([Party("A", 667)], [Party("B", 333), Party("C", 333)])
  {
    var c := map["A" := 667, "B" := -333, "C" := -333];
    var k := {"A", "B", "C"};
    assert ["A", "B", "C"][1..] == ["B", "C"] && ["B", "C"][1..] == ["C"] && ["C"][1..] == [];
    assert Partition(["C"], c, k).1 == [Party("C", 333)];
    assert Partition(["C"], c, k).0 == [];
    assert Partition(["B", "C"], c, k).1 == [Party("B", 333), Party("C", 333)];
    assert Partition(["B", "C"], c, k).0 == [];
    assert Partition(["A", "B", "C"], c, k).1 == [Party("B", 333), Party("C", 333)];
    assert Partition(["A", "B", "C"], c, k).0 == [Party("A", 667)];
  }

  /** After B and C have paid, one cent is still listed for A and nobody is left to pay it. */
  lemma ThreeWayGreedy()
    ensures Greedy([Party("B", 333), Party("C", 333)], [Party("A", 667)])
         == [Transfer("B", "A", 333), Transfer("C", "A", 333)]
  {
    assert Residue([Party("B", 333), Party("C", 333)], 333) == [Party("C", 333)];
    assert Residue([Party("A", 667)], 333) == [Party("A", 334)];
    assert Greedy([Party("C", 333)], [Party("A", 334)]) == [Transfer("C", "A", 333)];
  }

  /**
   * The transfers cover what is owed, 6.66, and A keeps a one-cent
   * residue: the rounded balances do not add up to zero.
   */
  lemma ThreeWaySettlement()
    ensures GetSettlement(Trip([Snack()])) == Success([Transfer("B", "A", 333), Transfer("C", "A", 333)])
  {
    TripIds([Snack()]);
    ThreeWayBalances();
    ThreeWayRounded();
    ThreeWayPartition();
    ThreeWayGreedy();
    GetSettlementIsGreedy(Trip([Snack()]));
  }
}

=== FILE: serializer.dfy ===
/**
 * The expense serializer's write path: `validate` checks the submitted
 * attributes against the event, `create` builds a new expense from them, and
 * `update` overwrites the supplied fields of an existing one and saves it.
 */
module Serializer {
  import opened Wrappers
  import opened Entities
  import opened Balances
  import opened Clean

  /**
   * The validated attributes of a request; a field that was not submitted is
   * `None`. `category` may be submitted as null, hence `Some(None)`.
   */
  datatype Attrs = Attrs(
    description: Option<string>,
    amount: Option<int>,
    payer: Option<Pid>,
    event: Option<Eid>,
    category: Option<Option<Cid>>,
    split: Option<seq<Pid>>)

  /** A request that submits nothing (an empty partial update). */
  const NoAttrs := Attrs(None, None, None, None, None, None)

  /** The event the checks run against: the submitted one, else the instance's. */
  function EventOf(attrs: Attrs, instance: Option<Expense>): Option<Eid>
  {
    if attrs.event.Some? then attrs.event
    else if instance.Some? then Some(instance.value.event)
    else None
  }

  /** The payer the checks run against: the submitted one, else the instance's. */
  function PayerOf(attrs: Attrs, instance: Option<Expense>): Option<Pid>
  {
    if attrs.payer.Some? then attrs.payer
    else if instance.Some? then Some(instance.value.payer)
    else None
  }

  /**
   * `ExpenseSerializer.validate`: an event is required; the payer and every
   * submitted split member must be participants of it; a submitted amount
   * must be positive. The checks run in that order and the first failure is
   * reported; attributes that pass are returned as they are.
   */
  function Validate(attrs: Attrs, instance: Option<Expense>, db: Db): (r: Result<Attrs, ErrorKey>)
    ensures r.Success? ==> r.value == attrs
    ensures r == Failure(EventKey) <==> EventOf(attrs, instance).None?
    ensures r == Failure(PayerKey) <==>
              && EventOf(attrs, instance).Some?
              && PayerOf(attrs, instance).Some?
              && !InEvent(db, PayerOf(attrs, instance).value, EventOf(attrs, instance).value)
    ensures r == Failure(SplitBetweenIdsKey) <==>
              && EventOf(attrs, instance).Some?
              && (PayerOf(attrs, instance).Some? ==> InEvent(db, PayerOf(attrs, instance).value, EventOf(attrs, instance).value))
              && attrs.split.Some?
              && exists m :: m in attrs.split.value && !InEvent(db, m, EventOf(attrs, instance).value)
    ensures r == Failure(AmountKey) <==>
              && EventOf(attrs, instance).Some?
              && (PayerOf(attrs, instance).Some? ==> InEvent(db, PayerOf(attrs, instance).value, EventOf(attrs, instance).value))
              && (attrs.split.Some? ==> forall m :: m in attrs.split.value ==> InEvent(db, m, EventOf(attrs, instance).value))
              && attrs.amount.Some? && attrs.amount.value <= 0
    ensures r.Failure? ==> r.error in {EventKey, PayerKey, SplitBetweenIdsKey, AmountKey}
  {
    var event := EventOf(attrs, instance);
    var payer := PayerOf(attrs, instance);
    if event.None? then Failure(EventKey)
    else if payer.Some? && !InEvent(db, payer.value, event.value) then Failure(PayerKey)
    else if attrs.split.Some? && exists m :: m in attrs.split.value && !InEvent(db, m, event.value) then
      Failure(SplitBetweenIdsKey)
    else if attrs.amount.Some? && attrs.amount.value <= 0 then Failure(AmountKey)
    else Success(attrs)
  }

  /** The fields `create` cannot do without (the serializer marks them required). */
  predicate Complete(attrs: Attrs)
  {
    attrs.description.Some? && attrs.amount.Some? && attrs.payer.Some? && attrs.event.Some?
  }

  /** The members of a split that must exist in the database before the expense can be saved. */
  predicate Stored(db: Db, split: seq<Pid>)
  {
    forall m :: m in split ==> m in db.participantEvent
  }

  /**
   * The `m2m_changed` guard run when a split is assigned: a member outside
   * the expense's event fails with a message that carries no field, which
   * the view reports under `non_field_errors`.
   */
  function GuardSplit(split: seq<Pid>, ev: Eid, db: Db): (r: Outcome<ErrorKey>)
    requires Stored(db, split)
    ensures r == Pass <==> forall m :: m in split ==> InEvent(db, m, ev)
    ensures r.Fail? ==> r.error == NonFieldErrorsKey
  {
    if CheckSplit(split, ev, db) == Pass then Pass else Fail(NonFieldErrorsKey)
  }

  /**
   * What `split_between.set(ids)` stores: the relation holds each
   * participant once, so a repeated id is kept at its first occurrence only.
   */
  function Dedup(ids: seq<Pid>): (r: seq<Pid>)
    ensures Distinct(r)
    ensures forall m :: m in r <==> m in ids
    ensures |r| <= |ids|
    decreases |ids|
  {
    if |ids| == 0 then []
    else
      var rest := Dedup(ids[..|ids| - 1]);
      var last := ids[|ids| - 1];
      assert ids == ids[..|ids| - 1] + [last];
      if last in rest then rest else rest + [last]
  }

  /** A split without repeats is stored as it is. */
  lemma {:induction false} DedupKeepsDistinct(ids: seq<Pid>)
    requires Distinct(ids)
    ensures Dedup(ids) == ids
    decreases |ids|
  {
    if |ids| > 0 {
      var init := ids[..|ids| - 1];
      DedupKeepsDistinct(init);
      assert ids[|ids| - 1] !in init;
      assert init + [ids[|ids| - 1]] == ids;
    }
  }

  /**
   * `ExpenseSerializer.create`: the expense is built from the attributes,
   * saved (running `Expense.clean` on a new row), and then given the
   * submitted split, or an empty one when none was submitted.
   */
  function Create(attrs: Attrs, db: Db): (r: Result<Expense, ErrorKey>)
    requires Complete(attrs)
    requires attrs.payer.value in db.participantEvent
    requires Stored(db, attrs.split.GetOr([]))
    ensures r.Success? ==>
              && r.value.description == attrs.description.value
              && r.value.amount == attrs.amount.value
              && r.value.payer == attrs.payer.value
              && r.value.event == attrs.event.value
              && r.value.category == attrs.category.GetOr(None)
              && r.value.split == Dedup(attrs.split.GetOr([]))
    ensures r.Success? ==>
              && Distinct(r.value.split)
              && forall m :: m in r.value.split <==> m in attrs.split.GetOr([])
    ensures r.Success? <==>
              && InEvent(db, attrs.payer.value, attrs.event.value)
              && forall m :: m in attrs.split.GetOr([]) ==> InEvent(db, m, attrs.event.value)
    ensures r == Failure(PayerKey) <==> !InEvent(db, attrs.payer.value, attrs.event.value)
  {
    var e := Expense(attrs.description.value, attrs.amount.value, attrs.payer.value, attrs.event.value,
                     [], attrs.category.GetOr(None));
    match CleanExpense(e, false, db)
    case Fail(k) => Failure(k)
    case Pass =>
      var split := attrs.split.GetOr([]);
      match GuardSplit(split, e.event, db)
      case Fail(k) => Failure(k)
      case Pass => Success(e.(split := Dedup(split)))
  }

  /** Attributes that pass validation are created without a model error. */
  lemma ValidatedCreateSucceeds(attrs: Attrs, db: Db)
    requires Complete(attrs)
    requires attrs.payer.value in db.participantEvent
    requires Stored(db, attrs.split.GetOr([]))
    requires Validate(attrs, None, db).Success?
    ensures Create(attrs, db).Success?
    ensures Create(attrs, db).value.amount > 0
  {
  }

  /**
   * A created expense passes the stored-expense rules of `Expense.clean`,
   * and when it is listed on its event the balance computation can resolve
   * everyone it names.
   */
  lemma CreatedExpenseIsResolvable(attrs: Attrs, db: Db, ev: Event)
    requires Complete(attrs)
    requires attrs.payer.value in db.participantEvent
    requires Stored(db, attrs.split.GetOr([]))
    requires Create(attrs, db).Success?
    requires Snapshot(db, ev) && attrs.event.value == ev.id
    ensures CleanExpense(Create(attrs, db).value, true, db) == Pass
    ensures Resolvable((set p | p in Ids(ev.participants)), Ids(ev.participants), Create(attrs, db).value)
  {
    var e := Create(attrs, db).value;
    assert InEvent(db, e.payer, ev.id);
    forall m | m in e.split
      ensures m in Ids(ev.participants)
    {
      assert InEvent(db, m, ev.id);
    }
  }

  /** The fields of `instance` overwritten by those `attrs` supplies; the split is left alone. */
  function Assign(instance: Expense, attrs: Attrs): Expense
  {
    instance.(
      description := attrs.description.GetOr(instance.description),
      amount := attrs.amount.GetOr(instance.amount),
      payer := attrs.payer.GetOr(instance.payer),
      event := attrs.event.GetOr(instance.event),
      category := attrs.category.GetOr(instance.category))
  }

  /**
   * `ExpenseSerializer.update`: the supplied fields are assigned and the
   * instance saved, which runs `Expense.clean` on a stored row, that is
   * against the split it still has; then a supplied split replaces the old
   * one through the `m2m_changed` guard.
   */
  function Update(instance: Expense, attrs: Attrs, db: Db): (r: Result<Expense, ErrorKey>)
    requires attrs.payer.GetOr(instance.payer) in db.participantEvent
    requires Stored(db, instance.split) && Stored(db, attrs.split.GetOr([]))
    ensures r.Success? ==>
              && r.value.description == attrs.description.GetOr(instance.description)
              && r.value.amount == attrs.amount.GetOr(instance.amount)
              && r.value.payer == attrs.payer.GetOr(instance.payer)
              && r.value.event == attrs.event.GetOr(instance.event)
              && r.value.category == attrs.category.GetOr(instance.category)
              && r.value.split == (if attrs.split.Some? then Dedup(attrs.split.value) else instance.split)
    ensures r.Success? && attrs.split.Some? ==>
              && Distinct(r.value.split)
              && forall m :: m in r.value.split <==> m in attrs.split.value
    ensures r.Success? <==>
              && CleanExpense(Assign(instance, attrs), true, db) == Pass
              && forall m :: m in attrs.split.GetOr([]) ==> InEvent(db, m, Assign(instance, attrs).event)
  {
    var e := Assign(instance, attrs);
    match CleanExpense(e, true, db)
    case Fail(k) => Failure(k)
    case Pass =>
      if attrs.split.None? then Success(e)
      else
        match GuardSplit(attrs.split.value, e.event, db)
        case Fail(k) => Failure(k)
        case Pass => Success(e.(split := Dedup(attrs.split.value)))
  }

  /** Later attributes win: `Override(a, b)` takes each field from `b` when `b` supplies it. */
  function Override(a: Attrs, b: Attrs): Attrs
  {
    Attrs(
      if b.description.Some? then b.description else a.description,
      if b.amount.Some? then b.amount else a.amount,
      if b.payer.Some? then b.payer else a.payer,
      if b.event.Some? then b.event else a.event,
      if b.category.Some? then b.category else a.category,
      if b.split.Some? then b.split else a.split)
  }

  /** An update that supplies nothing saves the instance unchanged (when it is valid). */
  lemma UpdateNothing(instance: Expense, db: Db)
    requires instance.payer in db.participantEvent && Stored(db, instance.split)
    ensures Update(instance, NoAttrs, db).Success? ==> Update(instance, NoAttrs, db).value == instance
    ensures Update(instance, NoAttrs, db).Success? <==> CleanExpense(instance, true, db) == Pass
  {
  }

  /** Applying the same update twice leaves what the first application left. */
  lemma UpdateIdempotent(instance: Expense, attrs: Attrs, db: Db)
    requires attrs.payer.GetOr(instance.payer) in db.participantEvent
    requires Stored(db, instance.split) && Stored(db, attrs.split.GetOr([]))
    requires Update(instance, attrs, db).Success?
    ensures Update(Update(instance, attrs, db).value, attrs, db) == Update(instance, attrs, db)
  {
    var e := Update(instance, attrs, db).value;
    assert Assign(e, attrs) == e;
    if attrs.split.Some? {
      DedupKeepsDistinct(e.split);
    }
  }

  /**
   * Two successive successful updates have the fields a single update with
   * the overridden attributes would have.
   */
  lemma UpdateCompose(instance: Expense, a: Attrs, b: Attrs, db: Db)
    requires a.payer.GetOr(instance.payer) in db.participantEvent
    requires Stored(db, instance.split) && Stored(db, a.split.GetOr([]))
    requires Update(instance, a, db).Success?
    requires b.payer.GetOr(Update(instance, a, db).value.payer) in db.participantEvent
    requires Stored(db, b.split.GetOr([]))
    requires Update(Update(instance, a, db).value, b, db).Success?
    ensures Override(a, b).payer.GetOr(instance.payer) in db.participantEvent
    ensures Stored(db, Override(a, b).split.GetOr([]))
    ensures Update(instance, Override(a, b), db).Success? ==>
              Update(Update(instance, a, db).value, b, db) == Update(instance, Override(a, b), db)
  {
  }

  /**
   * Update checks the split an expense already has against the event it is
   * given: moving an expense to another event fails under `split_between`
   * even when the new split passes validation.
   */
  lemma UpdateChecksOldSplit()
    ensures var db := Db(map["a" := "x", "b" := "y"], {"x", "y"}, {});
            var instance := Expense("taxi", 500, "a", "x", ["a"], None);
            var attrs := Attrs(None, None, Some("b"), Some("y"), None, Some(["b"]));
            && Validate(attrs, Some(instance), db) == Success(attrs)
            && Update(instance, attrs, db) == Failure(SplitBetweenKey)
  {
    var db := Db(map["a" := "x", "b" := "y"], {"x", "y"}, {});
    assert !InEvent(db, "a", "y");
    assert "a" in ["a"];
  }

  /**
   * A split submitted with a repeated participant is stored with that
   * participant once, so the expense is shared between two people, not
   * counted three ways.
   */
  lemma RepeatedSplitStoredOnce()
    ensures var db := Db(map["a" := "x", "b" := "x"], {"x"}, {});
            var instance := Expense("taxi", 600, "a", "x", ["a"], None);
            var attrs := Attrs(None, None, None, None, None, Some(["b", "b", "a"]));
            && Validate(attrs, Some(instance), db) == Success(attrs)
            && Update(instance, attrs, db) == Success(instance.(split := ["b", "a"]))
  {
    DedupRepeated();
  }

  /** Deduplicating keeps the first occurrence of each id, in order. */
  lemma DedupRepeated()
    ensures Dedup(["b", "b", "a"]) == ["b", "a"]
  {
    var e: seq<Pid> := [];
    var one: seq<Pid> := e + ["b"];
    var two: seq<Pid> := one + ["b"];
    var ids: seq<Pid> := two + ["a"];
    DedupFresh(e, "b");
    DedupSeen(one, "b");
    assert "a" !in two;
    DedupFresh(two, "a");
    assert ids == ["b", "b", "a"];
  }

  /** An id not listed before is appended. */
  lemma DedupFresh(ids: seq<Pid>, x: Pid)
    requires x !in ids
    ensures Dedup(ids + [x]) == Dedup(ids) + [x]
  {
    var s := ids + [x];
    assert s[..|s| - 1] == ids;
  }

  /** An id listed before is dropped. */
  lemma DedupSeen(ids: seq<Pid>, x: Pid)
    requires x in ids
    ensures Dedup(ids + [x]) == Dedup(ids)
  {
    var s := ids + [x];
    assert s[..|s| - 1] == ids;
  }

}

=== FILE: settlements.dfy ===
/**
 * The second stage of the settlement engine (`Event.get_settlement`): round
 * every balance to whole cents, split the participants into creditors and
 * debtors in participant order, and pair them greedily with a two-pointer
 * loop, emitting one transfer per step.
 */
module Settlements {
  import opened Wrappers
  import opened Entities
  import opened Balances

  /**
   * Decimal's `quantize(Decimal('0.01'), ROUND_HALF_UP)` applied to an amount
   * of currency, expressed on the same amount in cents: the nearest whole
   * cent, ties away from zero.
   */
  function RoundHalfUp(x: real): (n: int)
    ensures n as real - 0.5 <= x <= n as real + 0.5
    ensures x == n as real + 0.5 ==> x < 0.0
    ensures x == n as real - 0.5 ==> x > 0.0
  {
    if x >= 0.0 then (x + 0.5).Floor else -((-x + 0.5).Floor)
  }

  /** A creditor or debtor with what they are still owed, or still owe, in cents. */
  datatype Party = Party(id: Pid, cents: int)

  /** One emitted settlement instruction: `from` pays `to` `amount` cents. */
  datatype Transfer = Transfer(from: Pid, to: Pid, amount: int)

  /** Balances rounded to whole cents. */
  type Cents = map<Pid, int>

  /** Every balance rounded half-up to a cent, as the partition loop reads them. */
  function Rounded(b: Balances): (c: Cents)
    ensures c.Keys == b.Keys
    ensures forall p :: p in b ==> c[p] == RoundHalfUp(b[p])
  {
    map p | p in b :: RoundHalfUp(b[p])
  }

  /** The ids of a list of parties, in list order. */
  function PartyOrder(ps: seq<Party>): (ids: seq<Pid>)
    ensures |ids| == |ps|
    ensures forall k :: 0 <= k < |ps| ==> ids[k] == ps[k].id
  {
    if |ps| == 0 then [] else [ps[0].id] + PartyOrder(ps[1..])
  }

  function PartyIds(ps: seq<Party>): set<Pid>
  {
    set x | x in ps :: x.id
  }

  predicate AllPositive(ps: seq<Party>)
  {
    forall k :: 0 <= k < |ps| ==> ps[k].cents > 0
  }

  /** The cents of all entries. */
  function Sum(ps: seq<Party>): int
  {
    if |ps| == 0 then 0 else ps[0].cents + Sum(ps[1..])
  }

  /** The cents listed under participant `p`. */
  function Claim(ps: seq<Party>, p: Pid): int
  {
    if |ps| == 0 then 0 else (if ps[0].id == p then ps[0].cents else 0) + Claim(ps[1..], p)
  }

  /** What `p` pays across a list of transfers. */
  function Paid(ts: seq<Transfer>, p: Pid): int
  {
    if |ts| == 0 then 0 else (if ts[0].from == p then ts[0].amount else 0) + Paid(ts[1..], p)
  }

  /** What `p` receives across a list of transfers. */
  function Received(ts: seq<Transfer>, p: Pid): int
  {
    if |ts| == 0 then 0 else (if ts[0].to == p then ts[0].amount else 0) + Received(ts[1..], p)
  }

  /** The sum of all transferred amounts. */
  function Transferred(ts: seq<Transfer>): int
  {
    if |ts| == 0 then 0 else ts[0].amount + Transferred(ts[1..])
  }

  /** The sum of the rounded balances of the known participants listed in `order`. */
  function RoundedTotal(order: seq<Pid>, c: Cents, known: set<Pid>): int
    requires forall p :: p in order ==> p in c
  {
    if |order| == 0 then 0
    else (if order[0] in known then c[order[0]] else 0) + RoundedTotal(order[1..], c, known)
  }

  /** What the known participants listed in `order` are owed after rounding: their positive rounded balances. */
  function Due(order: seq<Pid>, c: Cents, known: set<Pid>): int
    requires forall p :: p in order ==> p in c
  {
    if |order| == 0 then 0
    else (if order[0] in known && c[order[0]] > 0 then c[order[0]] else 0)
         + Due(order[1..], c, known)
  }

  /** What the known participants listed in `order` owe after rounding: their negative rounded balances, negated. */
  function Owed(order: seq<Pid>, c: Cents, known: set<Pid>): int
    requires forall p :: p in order ==> p in c
  {
    if |order| == 0 then 0
    else (if order[0] in known && c[order[0]] < 0 then -c[order[0]] else 0)
         + Owed(order[1..], c, known)
  }

  /**
   * The partition loop: walk the balances in order, skip ids that are not
   * known participants, and put each positive rounded balance among the
   * creditors and each negative one, negated, among the debtors.
   * Returns `(creditors, debtors)`.
   */
  function Partition(order: seq<Pid>, c: Cents, known: set<Pid>): (r: (seq<Party>, seq<Party>))
    requires forall p :: p in order ==> p in c
    ensures forall x :: x in r.0 ==> x.id in order && x.id in known && x.cents == c[x.id] > 0
    ensures forall x :: x in r.1 ==> x.id in order && x.id in known && x.cents == -c[x.id] > 0
    ensures |r.0| + |r.1| <= |order|
  {
    if |order| == 0 then ([], [])
    else
      var (creditors, debtors) := Partition(order[1..], c, known);
      var p := order[0];
      var amt := c[p];
      if p !in known then (creditors, debtors)
      else if amt > 0 then ([Party(p, amt)] + creditors, debtors)
      else if amt < 0 then (creditors, [Party(p, -amt)] + debtors)
      else (creditors, debtors)
  }

  /**
   * Neither list is sorted: creditors and debtors each appear in the order
   * in which `order` lists them.
   */
  lemma {:induction false} PartitionKeepsOrder(order: seq<Pid>, c: Cents, known: set<Pid>)
    requires forall p :: p in order ==> p in c
    ensures Subsequence(PartyOrder(Partition(order, c, known).0), order)
    ensures Subsequence(PartyOrder(Partition(order, c, known).1), order)
    decreases |order|
  {
    if |order| > 0 {
      assert forall x :: x in order[1..] ==> x in order;
      var (creditors, debtors) := Partition(order[1..], c, known);
      PartitionKeepsOrder(order[1..], c, known);
      PartitionStep(order, c, known);
      SkipHead(PartyOrder(creditors), order);
      SkipHead(PartyOrder(debtors), order);
      var p := order[0];
      if p in known && c[p] > 0 {
        KeepHead(Party(p, c[p]), creditors, order);
      } else if p in known && c[p] < 0 {
        KeepHead(Party(p, -c[p]), debtors, order);
      }
    }
  }

  /** Skipping the head of `order` keeps a subsequence of the tail one of the whole. */
  lemma SkipHead(ids: seq<Pid>, order: seq<Pid>)
    requires |order| > 0 && Subsequence(ids, order[1..])
    ensures Subsequence(ids, order)
  {
  }

  /** Putting the head of `order` in front of a list drawn from its tail keeps the order. */
  lemma KeepHead(x: Party, ps: seq<Party>, order: seq<Pid>)
    requires |order| > 0 && x.id == order[0] && Subsequence(PartyOrder(ps), order[1..])
    ensures Subsequence(PartyOrder([x] + ps), order)
  {
    var ids := PartyOrder([x] + ps);
    assert ids[0] == order[0];
    assert ids[1..] == PartyOrder(ps);
  }

  /** One step of the partition loop: the head of `order` joins at most one of the two lists, at the front. */
  lemma PartitionStep(order: seq<Pid>, c: Cents, known: set<Pid>)
    requires |order| > 0 && forall p :: p in order ==> p in c
    ensures var q := order[0];
            var amt := c[q];
            && Partition(order, c, known).0
               == (if q in known && amt > 0 then [Party(q, amt)] else []) + Partition(order[1..], c, known).0
            && Partition(order, c, known).1
               == (if q in known && amt < 0 then [Party(q, -amt)] else []) + Partition(order[1..], c, known).1
  {
    assert forall x :: x in order[1..] ==> x in order;
    var r := Partition(order[1..], c, known);
    assert [] + r.0 == r.0 && [] + r.1 == r.1;
  }

  /** One step's payment: the smaller of the two residues. */
  function Pay(d: Party, c: Party): int
  {
    if d.cents <= c.cents then d.cents else c.cents
  }

  /** The list after paying `pay` off its head: the head is retired once it reaches zero. */
  function Residue(ps: seq<Party>, pay: int): seq<Party>
    requires |ps| > 0
  {
    if ps[0].cents - pay == 0 then ps[1..] else [Party(ps[0].id, ps[0].cents - pay)] + ps[1..]
  }

  /**
   * The settlement loop as a recursion on the residue lists: pay the smaller
   * residue from the first debtor to the first creditor, retire whoever is
   * done, and continue until one list runs out. Every step retires someone,
   * so at most `|debtors| + |creditors| - 1` transfers are emitted.
   */
  function Greedy(debtors: seq<Party>, creditors: seq<Party>): (t: seq<Transfer>)
    ensures |t| <= if |debtors| == 0 || |creditors| == 0 then 0 else |debtors| + |creditors| - 1
    decreases |debtors| + |creditors|
  {
    if |debtors| == 0 || |creditors| == 0 then []
    else
      var pay := Pay(debtors[0], creditors[0]);
      [Transfer(debtors[0].id, creditors[0].id, pay)] + Greedy(Residue(debtors, pay), Residue(creditors, pay))
  }

  /** Every transfer goes from a listed debtor to a listed creditor. */
  lemma {:induction false} GreedyEndpoints(debtors: seq<Party>, creditors: seq<Party>)
    ensures forall t :: t in Greedy(debtors, creditors) ==> t.from in PartyIds(debtors) && t.to in PartyIds(creditors)
    decreases |debtors| + |creditors|
  {
    if |debtors| > 0 && |creditors| > 0 {
      var pay := Pay(debtors[0], creditors[0]);
      GreedyEndpoints(Residue(debtors, pay), Residue(creditors, pay));
      ResidueIds(debtors, pay);
      ResidueIds(creditors, pay);
      assert debtors[0] in debtors && creditors[0] in creditors;
    }
  }

  lemma ResidueIds(ps: seq<Party>, pay: int)
    requires |ps| > 0
    ensures PartyIds(Residue(ps, pay)) <= PartyIds(ps)
  {
    assert forall x :: x in ps[1..] ==> x in ps;
    assert ps[0] in ps;
  }

  lemma AppendAssoc<T>(a: seq<T>, b: seq<T>, c: seq<T>)
    ensures a + (b + c) == (a + b) + c
  {
  }

  /**
   * The two-pointer loop of `get_settlement` as written: indices `i` and `j`
   * into the debtor and creditor lists, residues overwritten in place, an
   * index advanced whenever its residue reaches zero.
   */
  method Settle(debtors: seq<Party>, creditors: seq<Party>) returns (transfers: seq<Transfer>)
    ensures transfers == Greedy(debtors, creditors)
    ensures |transfers| <= if |debtors| == 0 || |creditors| == 0 then 0 else |debtors| + |creditors| - 1
  {
    var ds, cs := debtors, creditors;
    var i, j := 0, 0;
    transfers := [];
    assert ds[i..] == debtors && cs[j..] == creditors;
    while i < |ds| && j < |cs|
      invariant |ds| == |debtors| && |cs| == |creditors|
      invariant 0 <= i <= |ds| && 0 <= j <= |cs|
      invariant Greedy(debtors, creditors) == transfers + Greedy(ds[i..], cs[j..])
      decreases |ds| - i + |cs| - j
    {
      ghost var dRest, cRest, done := ds[i..], cs[j..], transfers;
      var payment := Pay(ds[i], cs[j]);
      GreedyStep(dRest, cRest);
      transfers := transfers + [Transfer(ds[i].id, cs[j].id, payment)];
      ds, i := Retire(ds, i, payment);
      cs, j := Retire(cs, j, payment);
      AppendAssoc(done, [Transfer(dRest[0].id, cRest[0].id, payment)], Greedy(ds[i..], cs[j..]));
    }
    assert |ds[i..]| == 0 || |cs[j..]| == 0;
    assert transfers + Greedy(ds[i..], cs[j..]) == transfers;
  }

  /** One unfolding of the recursion. */
  lemma GreedyStep(debtors: seq<Party>, creditors: seq<Party>)
    requires |debtors| > 0 && |creditors| > 0
    ensures Greedy(debtors, creditors)
         == [Transfer(debtors[0].id, creditors[0].id, Pay(debtors[0], creditors[0]))]
            + Greedy(Residue(debtors, Pay(debtors[0], creditors[0])), Residue(creditors, Pay(debtors[0], creditors[0])))
  {
  }

  /**
   * One side of a loop iteration: take `pay` off the entry at index `i` in
   * place, and advance past it once it reaches zero.
   */
  method Retire(ps: seq<Party>, i: nat, pay: int) returns (ps': seq<Party>, i': nat)
    requires i < |ps|
    ensures |ps'| == |ps| && i' <= |ps'|
    ensures i' == if ps[i].cents == pay then i + 1 else i
    ensures ps'[..i] == ps[..i]
    ensures ps'[i'..] == Residue(ps[i..], pay)
  {
    assert ps[i..][0] == ps[i] && ps[i..][1..] == ps[i + 1..];
    var rest := ps[i].cents - pay;
    if rest == 0 {
      ps', i' := ps, i + 1;
    } else {
      ps', i' := ps[i := Party(ps[i].id, rest)], i;
      assert ps'[i..] == [ps'[i]] + ps'[i + 1..];
      assert ps'[i + 1..] == ps[i + 1..];
    }
  }

  function Min(x: int, y: int): int
  {
    if x <= y then x else y
  }

  lemma Tail<T>(x: T, s: seq<T>)
    ensures ([x] + s)[0] == x && ([x] + s)[1..] == s
  {
  }

  lemma {:induction false} SumOfPositive(ps: seq<Party>)
    requires AllPositive(ps)
    ensures Sum(ps) >= 0
    ensures |ps| > 0 ==> Sum(ps) > 0
    decreases |ps|
  {
    if |ps| > 0 {
      SumOfPositive(ps[1..]);
    }
  }

  lemma {:induction false} ClaimOfPositive(ps: seq<Party>, p: Pid)
    requires AllPositive(ps)
    ensures Claim(ps, p) >= 0
    decreases |ps|
  {
    if |ps| > 0 {
      ClaimOfPositive(ps[1..], p);
    }
  }

  /** Paying `pay` off the head lowers the list's sum, and the head's claim, by exactly `pay`. */
  lemma ResidueAccounts(ps: seq<Party>, pay: int, p: Pid)
    requires |ps| > 0
    ensures Sum(Residue(ps, pay)) == Sum(ps) - pay
    ensures Claim(Residue(ps, pay), p) == Claim(ps, p) - (if p == ps[0].id then pay else 0)
    ensures AllPositive(ps) && 0 < pay <= ps[0].cents ==> AllPositive(Residue(ps, pay))
  {
    if ps[0].cents - pay != 0 {
      Tail(Party(ps[0].id, ps[0].cents - pay), ps[1..]);
    }
  }

  /** Every transfer of the greedy loop moves a strictly positive amount. */
  lemma {:induction false} GreedyPaysPositive(debtors: seq<Party>, creditors: seq<Party>)
    requires AllPositive(debtors) && AllPositive(creditors)
    ensures forall k :: 0 <= k < |Greedy(debtors, creditors)| ==> Greedy(debtors, creditors)[k].amount > 0
    decreases |debtors| + |creditors|
  {
    if |debtors| > 0 && |creditors| > 0 {
      var pay := Pay(debtors[0], creditors[0]);
      var p := debtors[0].id;
      ResidueAccounts(debtors, pay, p);
      ResidueAccounts(creditors, pay, p);
      GreedyStep(debtors, creditors);
      GreedyPaysPositive(Residue(debtors, pay), Residue(creditors, pay));
    }
  }

  /** The greedy loop moves exactly the smaller of the total debt and the total credit. */
  lemma {:induction false} GreedyTransfersMin(debtors: seq<Party>, creditors: seq<Party>)
    requires AllPositive(debtors) && AllPositive(creditors)
    ensures Transferred(Greedy(debtors, creditors)) == Min(Sum(debtors), Sum(creditors))
    decreases |debtors| + |creditors|
  {
    SumOfPositive(debtors);
    SumOfPositive(creditors);
    if |debtors| > 0 && |creditors| > 0 {
      var pay := Pay(debtors[0], creditors[0]);
      var p := debtors[0].id;
      ResidueAccounts(debtors, pay, p);
      ResidueAccounts(creditors, pay, p);
      GreedyStep(debtors, creditors);
      GreedyTransfersMin(Residue(debtors, pay), Residue(creditors, pay));
      Tail(Transfer(p, creditors[0].id, pay), Greedy(Residue(debtors, pay), Residue(creditors, pay)));
    }
  }

  /**
   * Nobody pays more than they owe or receives more than they are owed; and
   * on whichever side the total is smaller, everyone is settled exactly.
   */
  lemma {:induction false} GreedyFlows(debtors: seq<Party>, creditors: seq<Party>, p: Pid)
    requires AllPositive(debtors) && AllPositive(creditors)
    ensures Paid(Greedy(debtors, creditors), p) <= Claim(debtors, p)
    ensures Received(Greedy(debtors, creditors), p) <= Claim(creditors, p)
    ensures Sum(debtors) <= Sum(creditors) ==> Paid(Greedy(debtors, creditors), p) == Claim(debtors, p)
    ensures Sum(creditors) <= Sum(debtors) ==> Received(Greedy(debtors, creditors), p) == Claim(creditors, p)
    decreases |debtors| + |creditors|
  {
    SumOfPositive(debtors);
    SumOfPositive(creditors);
    ClaimOfPositive(debtors, p);
    ClaimOfPositive(creditors, p);
    if |debtors| > 0 && |creditors| > 0 {
      var pay := Pay(debtors[0], creditors[0]);
      ResidueAccounts(debtors, pay, p);
      ResidueAccounts(creditors, pay, p);
      GreedyStep(debtors, creditors);
      GreedyFlows(Residue(debtors, pay), Residue(creditors, pay), p);
      Tail(Transfer(debtors[0].id, creditors[0].id, pay), Greedy(Residue(debtors, pay), Residue(creditors, pay)));
    }
  }

  /** The known participants whose rounded balance is not zero. */
  function Unsettled(order: seq<Pid>, c: Cents, known: set<Pid>): set<Pid>
    requires forall p :: p in order ==> p in c
  {
    set p | p in order && p in known && c[p] != 0
  }

  predicate DistinctIds(ps: seq<Party>)
  {
    forall i, j :: 0 <= i < j < |ps| ==> ps[i].id != ps[j].id
  }

  /** With distinct ids in `order`, each participant's claim among creditors and debtors is their rounded balance. */
  lemma {:induction false} PartitionClaims(order: seq<Pid>, c: Cents, known: set<Pid>, p: Pid)
    requires forall q :: q in order ==> q in c
    requires Distinct(order)
    ensures Claim(Partition(order, c, known).0, p)
         == if p in order && p in known && c[p] > 0 then c[p] else 0
    ensures Claim(Partition(order, c, known).1, p)
         == if p in order && p in known && c[p] < 0 then -c[p] else 0
    decreases |order|
  {
    if |order| > 0 {
      var q := order[0];
      assert forall x :: x in order[1..] ==> x in order;
      DistinctTail(order);
      PartitionClaims(order[1..], c, known, p);
      PartitionStep(order, c, known);
      var amt := c[q];
      ClaimCons(Party(q, amt), Partition(order[1..], c, known).0, p);
      ClaimCons(Party(q, -amt), Partition(order[1..], c, known).1, p);
      assert p in order <==> p == q || p in order[1..];
    }
  }

  lemma ClaimCons(x: Party, ps: seq<Party>, p: Pid)
    ensures Claim([x] + ps, p) == (if x.id == p then x.cents else 0) + Claim(ps, p)
    ensures Sum([x] + ps) == x.cents + Sum(ps)
    ensures Claim([] + ps, p) == Claim(ps, p) && Sum([] + ps) == Sum(ps)
  {
    Tail(x, ps);
    assert [] + ps == ps;
  }

  /** The creditors' total is what is due and the debtors' total what is owed. */
  lemma {:induction false} PartitionSums(order: seq<Pid>, c: Cents, known: set<Pid>)
    requires forall q :: q in order ==> q in c
    ensures Sum(Partition(order, c, known).0) == Due(order, c, known)
    ensures Sum(Partition(order, c, known).1) == Owed(order, c, known)
    decreases |order|
  {
    if |order| > 0 {
      var q := order[0];
      assert forall x :: x in order[1..] ==> x in order;
      PartitionSums(order[1..], c, known);
      PartitionStep(order, c, known);
      var amt := c[q];
      ClaimCons(Party(q, amt), Partition(order[1..], c, known).0, q);
      ClaimCons(Party(q, -amt), Partition(order[1..], c, known).1, q);
    }
  }

  /** The rounded balances add up to what is due minus what is owed. */
  lemma {:induction false} RoundedTotalSplits(order: seq<Pid>, c: Cents, known: set<Pid>)
    requires forall q :: q in order ==> q in c
    ensures RoundedTotal(order, c, known) == Due(order, c, known) - Owed(order, c, known)
    decreases |order|
  {
    if |order| > 0 {
      assert forall x :: x in order[1..] ==> x in order;
      RoundedTotalSplits(order[1..], c, known);
    }
  }

  lemma DistinctTail(order: seq<Pid>)
    requires Distinct(order) && |order| > 0
    ensures Distinct(order[1..]) && order[0] !in order[1..]
  {
    forall k | 0 <= k < |order[1..]| ensures order[1..][k] != order[0] {
      assert order[1..][k] == order[k + 1];
    }
  }

  lemma ConsDistinctIds(x: Party, ps: seq<Party>)
    requires DistinctIds(ps) && forall y :: y in ps ==> y.id != x.id
    ensures DistinctIds([x] + ps)
  {
    var xs := [x] + ps;
    forall i, j | 0 <= i < j < |xs| ensures xs[i].id != xs[j].id {
      assert xs[j] == ps[j - 1];
      if i > 0 {
        assert xs[i] == ps[i - 1];
      }
    }
  }

  /** With distinct ids in `order`, neither list names a participant twice. */
  lemma {:induction false} PartitionDistinctIds(order: seq<Pid>, c: Cents, known: set<Pid>)
    requires forall q :: q in order ==> q in c
    requires Distinct(order)
    ensures DistinctIds(Partition(order, c, known).0) && DistinctIds(Partition(order, c, known).1)
    decreases |order|
  {
    if |order| > 0 {
      var q := order[0];
      assert forall x :: x in order[1..] ==> x in order;
      DistinctTail(order);
      PartitionDistinctIds(order[1..], c, known);
      PartitionStep(order, c, known);
      var amt := c[q];
      var cr := Partition(order[1..], c, known).0;
      var db := Partition(order[1..], c, known).1;
      PrependNew(if q in known && amt > 0 then [Party(q, amt)] else [], cr, order[1..], q);
      PrependNew(if q in known && amt < 0 then [Party(q, -amt)] else [], db, order[1..], q);
    }
  }

  /** Putting at most one entry for an id not yet listed in front of a list keeps its ids distinct. */
  lemma PrependNew(head: seq<Party>, ps: seq<Party>, rest: seq<Pid>, q: Pid)
    requires DistinctIds(ps) && (forall x :: x in ps ==> x.id in rest) && q !in rest
    requires |head| <= 1 && forall x :: x in head ==> x.id == q
    ensures DistinctIds(head + ps)
  {
    if |head| == 0 {
      assert head + ps == ps;
    } else {
      ConsDistinctIds(head[0], ps);
      assert head == [head[0]];
    }
  }

  /** Together the two lists name exactly the unsettled participants. */
  lemma {:induction false} PartitionCoversUnsettled(order: seq<Pid>, c: Cents, known: set<Pid>)
    requires forall q :: q in order ==> q in c
    ensures PartyIds(Partition(order, c, known).0) + PartyIds(Partition(order, c, known).1) == Unsettled(order, c, known)
    decreases |order|
  {
    if |order| > 0 {
      var q := order[0];
      assert forall x :: x in order[1..] ==> x in order;
      PartitionCoversUnsettled(order[1..], c, known);
      PartitionStep(order, c, known);
      var amt := c[q];
      var cr := Partition(order[1..], c, known).0;
      var db := Partition(order[1..], c, known).1;
      PartyIdsCons(Party(q, amt), cr);
      PartyIdsCons(Party(q, -amt), db);
      if q in known && amt != 0 {
        assert Unsettled(order, c, known) == Unsettled(order[1..], c, known) + {q};
      } else {
        assert Unsettled(order, c, known) == Unsettled(order[1..], c, known);
      }
    }
  }

  lemma PartyIdsCons(x: Party, ps: seq<Party>)
    ensures PartyIds([x] + ps) == {x.id} + PartyIds(ps)
    ensures PartyIds([] + ps) == PartyIds(ps)
  {
    assert [] + ps == ps;
  }

  /** A list with distinct ids has as many ids as entries. */
  lemma {:induction false} DistinctIdsCount(ps: seq<Party>)
    requires DistinctIds(ps)
    ensures |PartyIds(ps)| == |ps|
    decreases |ps|
  {
    if |ps| > 0 {
      DistinctIdsCount(ps[1..]);
      assert PartyIds(ps) == {ps[0].id} + PartyIds(ps[1..]);
      assert ps[0].id !in PartyIds(ps[1..]);
    }
  }

  /**
   * `Event.get_settlement`: balances, partition in participant order, then
   * the greedy loop. Every transfer goes from a participant whose rounded
   * balance is negative to one whose rounded balance is positive, for a
   * strictly positive amount.
   */
  function GetSettlement(ev: Event): (r: Result<seq<Transfer>, Pid>)
    ensures r.Success? <==> GetBalance(ev).Success?
    ensures r.Success? ==> forall t :: t in r.value ==>
              && t.amount > 0
              && t.from in GetBalance(ev).value && t.to in GetBalance(ev).value
              && RoundHalfUp(GetBalance(ev).value[t.from]) < 0 < RoundHalfUp(GetBalance(ev).value[t.to])
  {
    match GetBalance(ev)
    case Failure(x) => Failure(x)
    case Success(b) =>
      var ids := Ids(ev.participants);
      var (creditors, debtors) := Partition(ids, Rounded(b), set p | p in ids);
      GreedyPaysPositive(debtors, creditors);
      GreedyEndpoints(debtors, creditors);
      Success(Greedy(debtors, creditors))
  }

  /** The participant ids of an event as a set: the ids `get_settlement` can look up. */
  function Known(ev: Event): set<Pid>
  {
    set p | p in Ids(ev.participants)
  }

  /** Inside `GetSettlement`: the greedy loop runs on the partition of the event's balances. */
  lemma GetSettlementIsGreedy(ev: Event)
    requires GetBalance(ev).Success?
    ensures var r := Partition(Ids(ev.participants), Rounded(GetBalance(ev).value), Known(ev));
            GetSettlement(ev) == Success(Greedy(r.1, r.0))
  {
  }

  /**
   * At most one transfer fewer than there are participants with a non-zero
   * rounded balance (none at all when everybody rounds to zero).
   */
  lemma SettlementCount(ev: Event)
    requires Distinct(Ids(ev.participants))
    requires GetBalance(ev).Success?
    ensures var n := |Unsettled(Ids(ev.participants), Rounded(GetBalance(ev).value), Known(ev))|;
            |GetSettlement(ev).value| <= if n == 0 then 0 else n - 1
  {
    var ids := Ids(ev.participants);
    var c := Rounded(GetBalance(ev).value);
    var (cr, db) := Partition(ids, c, Known(ev));
    GetSettlementIsGreedy(ev);
    PartitionDistinctIds(ids, c, Known(ev));
    PartitionCoversUnsettled(ids, c, Known(ev));
    DistinctIdsCount(cr);
    DistinctIdsCount(db);
    assert PartyIds(cr) * PartyIds(db) == {};
  }

  /** The settlement moves the smaller of the total owed and the total due, after rounding. */
  lemma SettlementTotal(ev: Event)
    requires GetBalance(ev).Success?
    ensures Transferred(GetSettlement(ev).value)
         == Min(Owed(Ids(ev.participants), Rounded(GetBalance(ev).value), Known(ev)),
                Due(Ids(ev.participants), Rounded(GetBalance(ev).value), Known(ev)))
  {
    var ids := Ids(ev.participants);
    var c := Rounded(GetBalance(ev).value);
    var (cr, db) := Partition(ids, c, Known(ev));
    GetSettlementIsGreedy(ev);
    PartitionSums(ids, c, Known(ev));
    GreedyTransfersMin(db, cr);
  }

  /** `SettlementFlows` for any balances, before they are tied to an event. */
  lemma PlanFlows(order: seq<Pid>, c: Cents, known: set<Pid>, p: Pid)
    requires forall q :: q in order ==> q in c
    requires Distinct(order) && p in order && p in known
    ensures var t := Greedy(Partition(order, c, known).1, Partition(order, c, known).0);
            var owes := if c[p] < 0 then -c[p] else 0;
            var due := if c[p] > 0 then c[p] else 0;
            && Paid(t, p) <= owes
            && Received(t, p) <= due
            && (Owed(order, c, known) <= Due(order, c, known) ==> Paid(t, p) == owes)
            && (Due(order, c, known) <= Owed(order, c, known) ==> Received(t, p) == due)
  {
    var (cr, db) := Partition(order, c, known);
    PartitionSums(order, c, known);
    PartitionClaims(order, c, known, p);
    GreedyFlows(db, cr, p);
  }

  /**
   * Per participant: nobody pays more than their rounded debt or receives
   * more than their rounded credit, and on the side whose total is smaller
   * everyone is settled exactly (rounding can leave a residue on the other).
   */
  lemma SettlementFlows(ev: Event, p: Pid)
    requires Distinct(Ids(ev.participants))
    requires GetBalance(ev).Success?
    requires p in Ids(ev.participants)
    ensures var b := GetBalance(ev).value;
            var c := Rounded(b);
            var t := GetSettlement(ev).value;
            var owes := if RoundHalfUp(b[p]) < 0 then -RoundHalfUp(b[p]) else 0;
            var due := if RoundHalfUp(b[p]) > 0 then RoundHalfUp(b[p]) else 0;
            && Paid(t, p) <= owes
            && Received(t, p) <= due
            && (Owed(Ids(ev.participants), c, Known(ev)) <= Due(Ids(ev.participants), c, Known(ev)) ==> Paid(t, p) == owes)
            && (Due(Ids(ev.participants), c, Known(ev)) <= Owed(Ids(ev.participants), c, Known(ev)) ==> Received(t, p) == due)
  {
    GetSettlementIsGreedy(ev);
    PlanFlows(Ids(ev.participants), Rounded(GetBalance(ev).value), Known(ev), p);
  }

  /**
   * When the rounded balances add up to zero, carrying out the transfers
   * brings every participant's rounded balance exactly to zero.
   */
  lemma SettlementSettlesEveryone(ev: Event)
    requires Distinct(Ids(ev.participants))
    requires GetBalance(ev).Success?
    requires RoundedTotal(Ids(ev.participants), Rounded(GetBalance(ev).value), Known(ev)) == 0
    ensures forall p :: p in Ids(ev.participants) ==>
              Received(GetSettlement(ev).value, p) - Paid(GetSettlement(ev).value, p)
              == RoundHalfUp(GetBalance(ev).value[p])
  {
    RoundedTotalSplits(Ids(ev.participants), Rounded(GetBalance(ev).value), Known(ev));
    forall p | p in Ids(ev.participants)
      ensures Received(GetSettlement(ev).value, p) - Paid(GetSettlement(ev).value, p)
              == RoundHalfUp(GetBalance(ev).value[p])
    {
      SettlementFlows(ev, p);
    }
  }

  /** What participant `p` receives minus what they pay. */
  function Net(ts: seq<Transfer>, p: Pid): int
  {
    Received(ts, p) - Paid(ts, p)
  }

  /** The net flows of the participants listed in `ids`, added up. */
  function NetSum(ts: seq<Transfer>, ids: seq<Pid>): int
  {
    if |ids| == 0 then 0 else Net(ts, ids[0]) + NetSum(ts, ids[1..])
  }

  /** `amount`, counted once for every occurrence of `x` in `ids`. */
  function Pick(ids: seq<Pid>, x: Pid, amount: int): int
  {
    if |ids| == 0 then 0 else (if ids[0] == x then amount else 0) + Pick(ids[1..], x, amount)
  }

  lemma {:induction false} PickDistinct(ids: seq<Pid>, x: Pid, amount: int)
    requires Distinct(ids)
    ensures Pick(ids, x, amount) == if x in ids then amount else 0
    decreases |ids|
  {
    if |ids| > 0 {
      DistinctTail(ids);
      PickDistinct(ids[1..], x, amount);
    }
  }

  lemma {:induction false} NetSumNone(ids: seq<Pid>)
    ensures NetSum([], ids) == 0
    decreases |ids|
  {
    if |ids| > 0 {
      NetSumNone(ids[1..]);
    }
  }

  /** One more transfer adds its amount at the payee and takes it away at the payer. */
  lemma {:induction false} NetSumStep(t: Transfer, ts: seq<Transfer>, ids: seq<Pid>)
    ensures NetSum([t] + ts, ids) == NetSum(ts, ids) + Pick(ids, t.to, t.amount) - Pick(ids, t.from, t.amount)
    decreases |ids|
  {
    Tail(t, ts);
    if |ids| > 0 {
      NetSumStep(t, ts, ids[1..]);
    }
  }

  /** Transfers among the listed participants leave their net flows adding up to zero. */
  lemma {:induction false} NetSumZero(ts: seq<Transfer>, ids: seq<Pid>)
    requires Distinct(ids)
    requires forall t :: t in ts ==> t.from in ids && t.to in ids
    ensures NetSum(ts, ids) == 0
    decreases |ts|
  {
    if |ts| == 0 {
      NetSumNone(ids);
      assert ts == [];
    } else {
      assert ts == [ts[0]] + ts[1..];
      NetSumStep(ts[0], ts[1..], ids);
      NetSumZero(ts[1..], ids);
      PickDistinct(ids, ts[0].to, ts[0].amount);
      PickDistinct(ids, ts[0].from, ts[0].amount);
    }
  }

  /** When every listed participant's net flow is their rounded balance, the flows add up to the rounded total. */
  lemma {:induction false} NetSumMatches(ts: seq<Transfer>, ids: seq<Pid>, c: Cents, known: set<Pid>)
    requires forall p :: p in ids ==> p in c && p in known && Net(ts, p) == c[p]
    ensures NetSum(ts, ids) == RoundedTotal(ids, c, known)
    decreases |ids|
  {
    if |ids| > 0 {
      NetSumMatches(ts, ids[1..], c, known);
    }
  }

  /** Transfers among distinct participants can bring each to its rounded balance only when those add up to zero. */
  lemma BalancedIfSettled(ts: seq<Transfer>, ids: seq<Pid>, c: Cents, known: set<Pid>)
    requires Distinct(ids)
    requires forall t :: t in ts ==> t.from in ids && t.to in ids
    requires forall p :: p in ids ==> p in c && p in known && Net(ts, p) == c[p]
    ensures RoundedTotal(ids, c, known) == 0
  {
    NetSumZero(ts, ids);
    NetSumMatches(ts, ids, c, known);
  }

  /** A plan that settles every participant exactly implies rounded balances adding up to zero. */
  lemma SettledOnlyWhenBalanced(ev: Event)
    requires Distinct(Ids(ev.participants))
    requires GetBalance(ev).Success?
    requires forall p :: p in Ids(ev.participants) ==>
               Received(GetSettlement(ev).value, p) - Paid(GetSettlement(ev).value, p)
               == RoundHalfUp(GetBalance(ev).value[p])
    ensures RoundedTotal(Ids(ev.participants), Rounded(GetBalance(ev).value), Known(ev)) == 0
  {
    var ids := Ids(ev.participants);
    var b := GetBalance(ev).value;
    var t := GetSettlement(ev).value;
    forall x | x in t
      ensures x.from in ids && x.to in ids
    {
      assert x.from in b && x.to in b;
    }
    forall p | p in ids
      ensures p in Rounded(b) && p in Known(ev) && Net(t, p) == Rounded(b)[p]
    {
      assert p in b;
    }
    BalancedIfSettled(t, ids, Rounded(b), Known(ev));
  }

  /**
   * The plan settles every participant exactly when the rounded balances
   * add up to zero: money only moves between participants, so a non-zero
   * rounded total always leaves someone unsettled.
   */
  lemma SettlementSettlesEveryoneExactly(ev: Event)
    requires Distinct(Ids(ev.participants))
    requires GetBalance(ev).Success?
    ensures (forall p :: p in Ids(ev.participants) ==>
               Received(GetSettlement(ev).value, p) - Paid(GetSettlement(ev).value, p)
               == RoundHalfUp(GetBalance(ev).value[p]))
        <==> RoundedTotal(Ids(ev.participants), Rounded(GetBalance(ev).value), Known(ev)) == 0
  {
    if RoundedTotal(Ids(ev.participants), Rounded(GetBalance(ev).value), Known(ev)) == 0 {
      SettlementSettlesEveryone(ev);
    } else if forall p :: p in Ids(ev.participants) ==>
                Received(GetSettlement(ev).value, p) - Paid(GetSettlement(ev).value, p)
                == RoundHalfUp(GetBalance(ev).value[p]) {
      SettledOnlyWhenBalanced(ev);
    }
  }
}

=== FILE: views.dfy ===
/**
 * `ExpenseViewSet.perform_create`: the raw `event`, `category` and
 * `split_between_ids` values of a create request are resolved against the
 * database before the serializer saves the expense, and model-level errors
 * raised while saving are turned into an API error dictionary.
 */
module Views {
  import opened Wrappers
  import opened Entities

  /** An API error body: each key with its messages. */
  type Detail = map<ErrorKey, seq<string>>

  /** The `split_between_ids` value of a request: missing, a (comma-separated) string, or a list. */
  datatype IdsField = Absent | Text(text: string) | List(ids: seq<string>)

  /** The three request values the view reads; `None` when the key is missing. */
  datatype Request = Request(event: Option<string>, category: Option<string>, splitIds: IdsField)

  /** What the view resolved: `None` where the request gave nothing to look up. */
  datatype Resolved = Resolved(event: Option<Eid>, category: Option<Cid>, split: Option<seq<Pid>>)

  /** A Django `ValidationError`: either keyed by field or a plain list of messages. */
  datatype DjangoError = FieldErrors(fields: Detail) | Messages(messages: seq<string>)

  const UnknownEvent := "Událost s tímto ID neexistuje."
  const UnknownCategory := "Kategorie s tímto ID neexistuje."
  const UnknownParticipant := "Jeden nebo více účastníků neexistuje."

  /** Python truthiness of an optional string value. */
  predicate Given(v: Option<string>)
  {
    v.Some? && |v.value| > 0
  }

  /** Python truthiness of the `split_between_ids` value. */
  predicate GivenIds(f: IdsField)
  {
    match f
    case Absent => false
    case Text(s) => |s| > 0
    case List(ids) => |ids| > 0
  }

  /** The pieces joined back with commas, the inverse of `str.split(',')`. */
  function JoinComma(ps: seq<string>): string
    requires |ps| >= 1
  {
    if |ps| == 1 then ps[0] else ps[0] + "," + JoinComma(ps[1..])
  }

  predicate CommaFree(s: string)
  {
    ',' !in s
  }

  /** Python's `s.split(',')`: the comma-free pieces between the commas, empty ones included. */
  function SplitOnComma(s: string): (r: seq<string>)
    ensures |r| >= 1
    ensures forall i :: 0 <= i < |r| ==> CommaFree(r[i])
    ensures JoinComma(r) == s
    decreases |s|
  {
    if |s| == 0 then [""]
    else
      var rest := SplitOnComma(s[1..]);
      assert s == [s[0]] + s[1..];
      if s[0] == ',' then
        assert ([""] + rest)[1..] == rest;
        [""] + rest
      else
        JoinHead([s[0]], rest);
        [[s[0]] + rest[0]] + rest[1..]
  }

  /** Text put in front of the first piece ends up in front of the joined string. */
  lemma JoinHead(x: string, rest: seq<string>)
    requires |rest| >= 1
    ensures JoinComma([x + rest[0]] + rest[1..]) == x + JoinComma(rest)
  {
    if |rest| == 1 {
      JoinHeadOne(x, rest);
    } else {
      JoinHeadMore(x, rest);
    }
  }

  lemma JoinHeadOne(x: string, rest: seq<string>)
    requires |rest| == 1
    ensures JoinComma([x + rest[0]] + rest[1..]) == x + JoinComma(rest)
  {
    assert [x + rest[0]] + rest[1..] == [x + rest[0]];
  }

  lemma JoinHeadMore(x: string, rest: seq<string>)
    requires |rest| > 1
    ensures JoinComma([x + rest[0]] + rest[1..]) == x + JoinComma(rest)
  {
    var r := [x + rest[0]] + rest[1..];
    assert r[0] == x + rest[0] && r[1..] == rest[1..] && |r| == |rest|;
    var j := JoinComma(rest[1..]);
    assert JoinComma(rest) == rest[0] + "," + j;
    assert JoinComma(r) == (x + rest[0]) + "," + j;
    RegroupComma(x, rest[0], j);
  }

  lemma RegroupComma(x: string, a: string, j: string)
    ensures (x + a) + "," + j == x + (a + "," + j)
  {
  }

  lemma {:induction false} SplitPlain(p: string)
    requires CommaFree(p)
    ensures SplitOnComma(p) == [p]
    decreases |p|
  {
    if |p| > 0 {
      assert p[0] in p;
      assert CommaFree(p[1..]) by {
        forall c | c in p[1..] ensures c in p { }
      }
      SplitPlain(p[1..]);
      assert [p[0]] + p[1..] == p;
    }
  }

  lemma {:induction false} SplitCons(p: string, s: string)
    requires CommaFree(p)
    ensures SplitOnComma(p + "," + s) == [p] + SplitOnComma(s)
    decreases |p|
  {
    var t := p + "," + s;
    if |p| == 0 {
      assert t == "," + s;
      assert t[1..] == s;
    } else {
      assert p[0] in p;
      assert CommaFree(p[1..]) by {
        forall c | c in p[1..] ensures c in p { }
      }
      assert t[0] == p[0];
      assert t[1..] == p[1..] + "," + s;
      SplitCons(p[1..], s);
      assert [p[0]] + p[1..] == p;
    }
  }

  /** Splitting a comma-joined list of comma-free pieces gives the pieces back. */
  lemma {:induction false} SplitJoin(ps: seq<string>)
    requires |ps| >= 1
    requires forall i :: 0 <= i < |ps| ==> CommaFree(ps[i])
    ensures SplitOnComma(JoinComma(ps)) == ps
    decreases |ps|
  {
    if |ps| == 1 {
      SplitPlain(ps[0]);
    } else {
      SplitJoin(ps[1..]);
      SplitCons(ps[0], JoinComma(ps[1..]));
      assert [ps[0]] + ps[1..] == ps;
    }
  }

  /**
   * The list comprehension `[s for s in pieces if s]`: the pieces in order,
   * repeats included, with every empty one dropped.
   */
  function NonEmpty(ps: seq<string>): (r: seq<string>)
    ensures Subsequence(r, ps)
    ensures multiset(r) == multiset(ps)["" := 0]
    ensures forall x :: x in r <==> x in ps && x != ""
    ensures |r| <= |ps|
    decreases |ps|
  {
    if |ps| == 0 then []
    else
      var rest := NonEmpty(ps[1..]);
      assert ps == [ps[0]] + ps[1..];
      assert multiset(ps) == multiset{ps[0]} + multiset(ps[1..]);
      if ps[0] == "" then
        assert Subsequence(rest, ps) by {
          assert |rest| == 0 || Subsequence(rest, ps[1..]);
        }
        rest
      else
        var r := [ps[0]] + rest;
        assert Subsequence(r, ps) by {
          assert r[0] == ps[0] && r[1..] == rest;
        }
        assert multiset(r) == multiset{ps[0]} + multiset(rest);
        r
  }

  /** Filtering distributes over concatenation, so the order of the pieces is kept. */
  lemma {:induction false} NonEmptyAppend(a: seq<string>, b: seq<string>)
    ensures NonEmpty(a + b) == NonEmpty(a) + NonEmpty(b)
    decreases |a|
  {
    if |a| == 0 {
      assert a + b == b;
    } else {
      assert (a + b)[0] == a[0];
      assert (a + b)[1..] == a[1..] + b;
      NonEmptyAppend(a[1..], b);
    }
  }

  /** The id list the view looks up: a string is split on commas with empty pieces dropped. */
  function ParseIds(f: IdsField): (r: seq<string>)
    ensures f.Text? ==> Subsequence(r, SplitOnComma(f.text))
    ensures f.Text? ==> multiset(r) == multiset(SplitOnComma(f.text))["" := 0]
    ensures f.Text? ==> forall x :: x in r <==> x != "" && x in SplitOnComma(f.text)
    ensures f.Text? ==> forall i :: 0 <= i < |r| ==> CommaFree(r[i])
    ensures f.List? ==> r == f.ids
  {
    match f
    case Absent => []
    case Text(s) =>
      var r := NonEmpty(SplitOnComma(s));
      assert forall i :: 0 <= i < |r| ==> r[i] in SplitOnComma(s);
      r
    case List(ids) => ids
  }

  /** Ids written as a comma-separated string are read back exactly, empty pieces aside. */
  lemma ParseIdsJoin(ids: seq<string>)
    requires |ids| >= 1
    requires forall i :: 0 <= i < |ids| ==> CommaFree(ids[i]) && ids[i] != ""
    ensures ParseIds(Text(JoinComma(ids))) == ids
  {
    SplitJoin(ids);
    NonEmptyKeeps(ids);
  }

  lemma {:induction false} NonEmptyKeeps(ps: seq<string>)
    requires forall i :: 0 <= i < |ps| ==> ps[i] != ""
    ensures NonEmpty(ps) == ps
    decreases |ps|
  {
    if |ps| > 0 {
      NonEmptyKeeps(ps[1..]);
      assert [ps[0]] + ps[1..] == ps;
    }
  }

  /** The participant rows `Participant.objects.filter(id__in=ids)` returns. */
  function Matching(ids: seq<string>, db: Db): set<Pid>
  {
    set p | p in db.participantEvent && p in ids
  }

  lemma {:induction false} DistinctCount(xs: seq<string>)
    ensures |(set x | x in xs)| <= |xs|
    ensures |(set x | x in xs)| == |xs| <==> Distinct(xs)
    decreases |xs|
  {
    if |xs| > 0 {
      DistinctCount(xs[1..]);
      var rest := set x | x in xs[1..];
      assert (set x | x in xs) == {xs[0]} + rest;
      if xs[0] in xs[1..] {
        var j :| 0 <= j < |xs[1..]| && xs[1..][j] == xs[0];
        assert xs[0] == xs[j + 1];
      } else {
        assert Distinct(xs) <==> Distinct(xs[1..]) by {
          if Distinct(xs[1..]) {
            forall i, j | 0 <= i < j < |xs|
              ensures xs[i] != xs[j]
            {
              if i == 0 {
                assert xs[j] == xs[1..][j - 1];
              } else {
                assert xs[i] == xs[1..][i - 1] && xs[j] == xs[1..][j - 1];
              }
            }
          }
        }
      }
    }
  }

  /**
   * The count comparison of the view accepts an id list exactly when its ids
   * are pairwise different and each names an existing participant.
   */
  lemma CountCheck(ids: seq<string>, db: Db)
    ensures |Matching(ids, db)| == |ids| <==> Distinct(ids) && forall i :: i in ids ==> i in db.participantEvent
  {
    var all := set x | x in ids;
    var m := Matching(ids, db);
    DistinctCount(ids);
    assert m <= all;
    if forall i :: i in ids ==> i in db.participantEvent {
      assert m == all;
    } else {
      var i :| i in ids && i !in db.participantEvent;
      assert i in all - m;
      assert |all| == |m| + |all - m| by {
        assert all == m + (all - m);
        assert m * (all - m) == {};
      }
    }
  }

  /**
   * The lookups of `perform_create`, in order: the event, the category, then
   * the split ids; a lookup runs only when the request value is truthy, and
   * the first that fails is reported.
   */
  function Resolve(req: Request, db: Db): (r: Result<Resolved, Detail>)
    ensures r == Failure(map[EventKey := [UnknownEvent]]) <==> Given(req.event) && req.event.value !in db.events
    ensures r == Failure(map[CategoryKey := [UnknownCategory]]) <==>
              && !(Given(req.event) && req.event.value !in db.events)
              && Given(req.category) && req.category.value !in db.categories
    ensures r == Failure(map[SplitBetweenIdsKey := [UnknownParticipant]]) <==>
              && !(Given(req.event) && req.event.value !in db.events)
              && !(Given(req.category) && req.category.value !in db.categories)
              && GivenIds(req.splitIds)
              && !(Distinct(ParseIds(req.splitIds)) && forall i :: i in ParseIds(req.splitIds) ==> i in db.participantEvent)
    ensures r.Success? ==>
              && (r.value.event.Some? <==> Given(req.event))
              && (r.value.event.Some? ==> r.value.event.value == req.event.value && r.value.event.value in db.events)
              && (r.value.category.Some? <==> Given(req.category))
              && (r.value.category.Some? ==> r.value.category.value == req.category.value && r.value.category.value in db.categories)
              && (r.value.split.Some? <==> GivenIds(req.splitIds))
              && (r.value.split.Some? ==>
                    && r.value.split.value == ParseIds(req.splitIds)
                    && Distinct(r.value.split.value)
                    && forall p :: p in r.value.split.value ==> p in db.participantEvent)
  {
    assert EventKey in map[EventKey := [UnknownEvent]];
    assert CategoryKey in map[CategoryKey := [UnknownCategory]];
    assert SplitBetweenIdsKey in map[SplitBetweenIdsKey := [UnknownParticipant]];
    if Given(req.event) && req.event.value !in db.events then Failure(map[EventKey := [UnknownEvent]])
    else if Given(req.category) && req.category.value !in db.categories then Failure(map[CategoryKey := [UnknownCategory]])
    else
      var event := if Given(req.event) then Some(req.event.value) else None;
      var category := if Given(req.category) then Some(req.category.value) else None;
      if GivenIds(req.splitIds) then
        var ids := ParseIds(req.splitIds);
        CountCheck(ids, db);
        if |Matching(ids, db)| != |ids| then Failure(map[SplitBetweenIdsKey := [UnknownParticipant]])
        else Success(Resolved(event, category, Some(ids)))
      else Success(Resolved(event, category, None))
  }

  /**
   * The dictionary a caught Django error becomes: its per-field messages, or,
   * when it has none, its messages under `non_field_errors`.
   */
  function DetailOf(e: DjangoError): (d: Detail)
    ensures |d| > 0
    ensures e.FieldErrors? && |e.fields| > 0 ==> d == e.fields
    ensures e.FieldErrors? && |e.fields| == 0 ==> d == map[NonFieldErrorsKey := []]
    ensures e.Messages? ==> d == map[NonFieldErrorsKey := e.messages]
  {
    match e
    case FieldErrors(fields) => if |fields| > 0 then fields else map[NonFieldErrorsKey := []]
    case Messages(ms) => map[NonFieldErrorsKey := ms]
  }

  /**
   * The messages under `split_between` move to `split_between_ids`, the name
   * the API accepts, unless that key is already present.
   */
  function Rekey(d: Detail): (r: Detail)
    ensures SplitBetweenIdsKey in d ==> r == d
    ensures SplitBetweenIdsKey !in d ==> SplitBetweenKey !in r
    ensures SplitBetweenIdsKey !in d ==>
              && (SplitBetweenIdsKey in r <==> SplitBetweenKey in d)
              && (SplitBetweenKey in d ==> r[SplitBetweenIdsKey] == d[SplitBetweenKey])
    ensures forall k :: k != SplitBetweenKey && k != SplitBetweenIdsKey ==>
              (k in r <==> k in d) && (k in d ==> r[k] == d[k])
    ensures |r| == |d|
  {
    if SplitBetweenKey in d && SplitBetweenIdsKey !in d then
      var rest := d - {SplitBetweenKey};
      assert |rest| == |d| - 1;
      rest[SplitBetweenIdsKey := d[SplitBetweenKey]]
    else d
  }

  /** Re-keying a second time changes nothing. */
  lemma RekeyIdempotent(d: Detail)
    ensures Rekey(Rekey(d)) == Rekey(d)
  {
  }

  /**
   * `perform_create`. `saved` is the outcome of the serializer's save with
   * the resolved event and category; `linked` is the outcome of assigning
   * the resolved split afterwards, which happens only when a split was
   * resolved. A Django error from either is reported with its keys renamed.
   */
  function PerformCreate(req: Request, db: Db, saved: Result<Expense, DjangoError>, linked: Outcome<DjangoError>): (r: Result<Expense, Detail>)
    ensures Resolve(req, db).Failure? ==> r == Failure(Resolve(req, db).error)
    ensures Resolve(req, db).Success? && saved.Failure? ==> r == Failure(Rekey(DetailOf(saved.error)))
    ensures Resolve(req, db).Success? && saved.Success? && Resolve(req, db).value.split.Some? && linked.Fail? ==>
              r == Failure(Rekey(DetailOf(linked.error)))
    ensures r.Success? <==>
              && Resolve(req, db).Success? && saved.Success?
              && (Resolve(req, db).value.split.Some? ==> linked == Pass)
    ensures r.Success? ==>
              && r.value == saved.value.(split := r.value.split)
              && r.value.split == (if GivenIds(req.splitIds) then ParseIds(req.splitIds) else saved.value.split)
    ensures r.Failure? ==> SplitBetweenKey !in r.error || SplitBetweenIdsKey in r.error
  {
    match Resolve(req, db)
    case Failure(d) => Failure(d)
    case Success(res) =>
      match saved
      case Failure(err) => Failure(Rekey(DetailOf(err)))
      case Success(e) =>
        if res.split.None? then Success(e)
        else
          match linked
          case Fail(err) => Failure(Rekey(DetailOf(err)))
          case Pass => Success(e.(split := res.split.value))
  }

  /** When resolution fails nothing is saved: the outcome does not depend on the save. */
  lemma RejectedBeforeSave(req: Request, db: Db, s1: Result<Expense, DjangoError>, s2: Result<Expense, DjangoError>, l1: Outcome<DjangoError>, l2: Outcome<DjangoError>)
    requires Resolve(req, db).Failure?
    ensures PerformCreate(req, db, s1, l1) == PerformCreate(req, db, s2, l2)
  {
  }

  /** Without split ids the view never assigns a split, so `linked` is irrelevant. */
  lemma NoSplitIgnoresLink(req: Request, db: Db, saved: Result<Expense, DjangoError>, l1: Outcome<DjangoError>, l2: Outcome<DjangoError>)
    requires !GivenIds(req.splitIds)
    ensures PerformCreate(req, db, saved, l1) == PerformCreate(req, db, saved, l2)
  {
  }

  /** A model error about `split_between` is reported to the client under `split_between_ids`. */
  lemma SplitErrorRenamed(req: Request, db: Db, msgs: seq<string>, linked: Outcome<DjangoError>)
    requires Resolve(req, db).Success?
    ensures PerformCreate(req, db, Failure(FieldErrors(map[SplitBetweenKey := msgs])), linked)
         == Failure(map[SplitBetweenIdsKey := msgs])
  {
    var d := map[SplitBetweenKey := msgs];
    assert Rekey(d).Keys == {SplitBetweenIdsKey};
  }

  /** A string of commas alone is truthy but names nobody: the split is resolved as empty. */
  lemma OnlyCommas(db: Db)
    ensures Resolve(Request(None, None, Text(",,")), db) == Success(Resolved(None, None, Some([])))
  {
    assert SplitOnComma(",,") == ["", "", ""] by {
      assert ",,"[1..] == ",";
      assert ","[1..] == "";
    }
    assert Matching([], db) == {};
  }

  /** A repeated id is kept by the parse, so the count check rejects it as if it did not exist. */
  lemma RepeatedIdRejected()
    ensures var db := Db(map["1" := "x"], {"x"}, {});
            Resolve(Request(None, None, Text("1,1")), db) == Failure(map[SplitBetweenIdsKey := [UnknownParticipant]])
  {
    var req := Request(None, None, Text("1,1"));
    ParseRepeated();
    assert GivenIds(req.splitIds) && !Given(req.event) && !Given(req.category);
    assert !Distinct(ParseIds(req.splitIds)) by {
      assert ParseIds(req.splitIds)[0] == ParseIds(req.splitIds)[1];
    }
  }

  /** The text "1,1" parses to the id "1" twice. */
  lemma ParseRepeated()
    ensures ParseIds(Text("1,1")) == ["1", "1"]
  {
    var ids := ["1", "1"];
    assert ids[1..] == ["1"];
    assert JoinComma(ids) == "1,1";
    ParseIdsJoin(ids);
  }
}

=== FILE: wrappers.dfy ===
/** Failure-carrying return types used in place of the source's exceptions. */
module Wrappers {

  /** A value that may be absent (Python's `None`). */
  datatype Option<+T> = None | Some(value: T) {

    /** The value, or `default` when absent. */
    function GetOr(default: T): T
    {
      match this
      case Some(v) => v
      case None => default
    }
  }

  /** Either a computed value or the error an exception would have carried. */
  datatype Result<+T, +E> = Success(value: T) | Failure(error: E)

  /** A check that either passes or names the first failure it found. */
  datatype Outcome<+E> = Pass | Fail(error: E)
}
